=== FILE: README.md ===
# Sketch app core, modelled in Dafny

This project models the logic of a small photo-to-pencil-sketch application. The model covers four parts:

- **The parameter advisor** (`auto_suggest_params`). It takes five image descriptors: contrast, edge density, noise level, smoothness and the strong/weak edge ratio. A fixed decision table maps them to a sketch mode, a blur kernel size, two bilateral sigmas, a smoothing pass count and two Canny thresholds. The model also covers the edge counting, the ratio and the mean absolute difference that produce the descriptors.
- **The pipeline control logic.** This covers:
  - kernel-size normalisation (`_ensure_odd` and the inline copy in `apply_bilateral`);
  - the repeated bilateral pass;
  - the Canny threshold swap in `detect_edges`;
  - the `255 - x` inversion and the edge mask `sketch & ~edges`;
  - the soft/strong dispatch of `process_image`.

  The OpenCV filters are uninterpreted functions in a `Filters` record.
- **Image-file recognition and folder listing** (`is_image_file`, `IMAGE_EXTENSIONS`, `list_images_in_folder`). Paths follow POSIX `posixpath` rules. The directory test, the listing and the file test are inputs.
- **The configuration records** (`EdgeConfig`, `BilateralConfig`, `SketchConfig`, `AppConfig`) and `DEFAULT_CONFIG`.

Modules:

- `Basics`: `Option` with its `None` default, `min`, `max` and the clamp `min(max(x, lo), hi)`.
- `Text`: ASCII `str.lower`, `str.strip` and `str.rfind`.
- `StringOrder`: Python string order and `list.sort`.
- `Pixels`: byte rasters, inversion and the edge mask.
- `Config`: the configuration records.
- `Statistics`: the descriptors.
- `Advisor`: the decision table.
- `Pipeline`: `image_processing.py`.
- `ImagePaths`: `is_image_file` and the folder listing.
- `Interplay`: facts that connect the advisor to the pipeline.

Two behaviours of the code are worth stating up front:

- **The advisor's Canny thresholds are not always ordered.** `canny_low` is `int(max(10, contrast * 0.8))` and `canny_high` is `int(min(200, contrast * 1.8))`, so a contrast of 0 gives low 10 and high 0. `Advisor.CannyOrderedExactly` pins down the contrasts where the pair is ordered: from 50/9 up to, but excluding, 251.25. `detect_edges` swaps a reversed pair, so Canny still receives them in order (`Interplay.FlatImageThresholdsSwapped`).
- **`detect_edges` swaps but never clamps.** A configured low threshold of 300 reaches Canny as it is (as the high one, when the other is smaller). The model does the same.

## Model

| member | source | states |
|---|---|---|
| Advisor.Trunc | Code/auto_params.py:61-62 | Python's `int()` of a float truncates toward zero: the result is within one below the argument for non-negative values and within one above it for negative ones |
| Advisor.TruncMonotone | Code/auto_params.py:61-62 | truncation never reverses the order of two values |
| Basics.Clamp | Code/auto_params.py:61-62 | `min(max(x, lo), hi)` lies in `[lo, hi]` leaves a value already inside unchanged, and sends a value below `lo` to `lo` and one above `hi` to `hi` |
| Advisor.Sharpness | Code/auto_params.py:37-50 | sharpness is 80 exactly when edge density > 40, contrast > 50, smoothness < 22 and strong ratio > 0.35, all strict, and 30 exactly otherwise |
| Advisor.AnyNaturalSignalGivesSoft | Code/auto_params.py:42-50 | failing any one of the four strict tests gives sharpness 30 |
| Advisor.BlurKsize | Code/auto_params.py:53-58 | the blur size is 25 exactly below contrast 30, 17 exactly on [30, 60) and 11 exactly from 60 on |
| Advisor.BlurKsizeAntitone | Code/auto_params.py:53-58 | more contrast never gives a larger blur size |
| Advisor.SigmaColor | Code/auto_params.py:61 | sigma color lies in [20, 120]; it is 20 exactly below noise 84 and 120 exactly from noise 480 on; in between it is the floor of noise/4 |
| Advisor.SigmaColorMonotone | Code/auto_params.py:61 | sigma color never decreases as the noise level grows |
| Advisor.SigmaSpace | Code/auto_params.py:62 | sigma space lies in [10, 50]; it is 10 exactly below contrast 22 and 50 exactly from contrast 100 on; in between it is the floor of contrast/2 |
| Advisor.SigmaSpaceMonotone | Code/auto_params.py:62 | sigma space never decreases as contrast grows |
| Advisor.Iterations | Code/auto_params.py:64-69 | 3 passes exactly above noise 300, 2 exactly on (120, 300] and 1 exactly up to 120; the boundaries fall to the lower tier |
| Advisor.IterationsMonotone | Code/auto_params.py:64-69 | a noisier image never gets fewer smoothing passes |
| Advisor.CannyLow | Code/auto_params.py:72 | the low threshold is at least 10; it is exactly 10 below contrast 13.75; from contrast 12.5 on it is the floor of 0.8·contrast |
| Advisor.CannyHigh | Code/auto_params.py:73 | the high threshold is at most 200 and exactly 200 from contrast 1000/9 on; for non-negative contrast it is non-negative and, below the cap, the floor of 1.8·contrast |
| Advisor.CannyOrderNotGuaranteed | Code/auto_params.py:72-73 | contrast 0 gives low 10 above high 0 |
| Advisor.CannyOrderedExactly | Code/auto_params.py:72-73 | for non-negative contrast, low ≤ high holds exactly when 50/9 ≤ contrast < 251.25 |
| Advisor.Suggest | Code/auto_params.py:76-91 | every suggested parameter lies in its range (sharpness in {30, 80}, blur in {11, 17, 25}, sigmas clamped, passes in 1..3, low ≥ 10, high ≤ 200); each field is its rule's value: sharpness 80 exactly when the image looks graphic, blur 25 exactly when contrast < 30 and 11 exactly when contrast ≥ 60, 3 passes exactly when noise > 300 and 1 exactly when noise ≤ 120, sigmas and Canny thresholds from their clamp rules; the five descriptors are echoed unchanged |
| Advisor.AutoSuggest | Code/auto_params.py:5-91 | the whole advisor on a raster: the decision table applied to the computed descriptors; density and smoothness lie in [0, 255], the ratio is non-negative, and smoothness is 0 exactly when the blur changed nothing |
| Advisor.FlatImageScenario | Code/auto_params.py:5-91 | a flat raster with a blank edge map gets the soft sketch, one pass, blur 25, sigmas 20/10 and thresholds 10/0 |
| Statistics.CountIn | Code/auto_params.py:29-30 | the count of samples in (lo, hi] is at most the sample count; it is 0 exactly when no sample lies in the range and full exactly when every sample does |
| Statistics.CountInSplit | Code/auto_params.py:29-30 | the counts over (a, b] and (b, c] add up to the count over (a, c] |
| Statistics.StrongEdges | Code/auto_params.py:29 | the strong-edge count is at most the sample count and is 0 exactly when no sample exceeds 200 |
| Statistics.WeakEdges | Code/auto_params.py:30 | the weak-edge count is at most the sample count and is 0 exactly when no sample lies in (50, 200] |
| Statistics.EdgeClassesDisjoint | Code/auto_params.py:29-30 | strong (> 200) and weak (50, 200] edges are disjoint classes: together they are the samples above 50 and never exceed the sample count |
| Statistics.Ratio | Code/auto_params.py:31 | `strong / max(weak, 1)` is non-negative; times the weak count it gives back the strong count, or equals the strong count when there are no weak edges; it is 0 exactly when there are no strong edges |
| Statistics.StrongRatio | Code/auto_params.py:31 | the ratio of an edge map is non-negative, 0 exactly when no sample exceeds 200, and equal to the strong count when there are no weak edges |
| Statistics.Sum | Code/auto_params.py:13 | the sum of a byte raster is at most 255 per sample and is 0 exactly when every sample is 0 |
| Statistics.Mean | Code/auto_params.py:13-21 | the mean of count ≥ 1 samples is non-negative, gives the total back when multiplied by the count, is 0 exactly when the total is, and is at most 255 when the total is at most 255 per sample |
| Statistics.MeanUnique | Code/auto_params.py:13-21 | two values that each give the total back when multiplied by the count are equal, so the mean is pinned down |
| Statistics.EdgeDensity | Code/auto_params.py:13 | the edge density is the mean of the edge map's samples (times the sample count it gives their sum); it lies in [0, 255] and is 0 exactly when the edge map is blank |
| Statistics.MeanBounds | Code/auto_params.py:21 | the mean of values in [0, 255] lies in [0, 255] and is 0 exactly when their sum is |
| Statistics.SumAbsDiff | Code/auto_params.py:21 | the summed absolute difference of two equal-size rasters is at most 255 per sample and is 0 exactly when the rasters are equal |
| Statistics.Smoothness | Code/auto_params.py:21 | smoothness is the mean absolute difference between the gray raster and its blur (times the sample count it gives the summed difference); it lies in [0, 255] and is 0 exactly when the two rasters are equal |
| Statistics.Describe | Code/auto_params.py:9-31 | the descriptor record echoes contrast and noise, with density and smoothness in [0, 255] and a non-negative ratio; density is the mean of the edge samples, smoothness the mean absolute difference to the blur, and the ratio is strong over weak edges with the zero-denominator fallback |
| Pixels.Invert | Code/image_processing.py:45 | `255 - x` on a byte is again a byte, equal to 255 minus the value, and equal to the bitwise complement |
| Pixels.InvertInvolution | Code/image_processing.py:45 | inverting a byte twice gives it back |
| Pixels.InvertImage | Code/image_processing.py:45 | inverting a raster keeps its size and maps every sample to 255 minus it |
| Pixels.InvertImageInvolution | Code/image_processing.py:60 | inverting a raster twice gives it back |
| Pixels.MaskPixel | Code/image_processing.py:66-70 | `sketch & ~edge`: an edge of 255 gives 0, an edge of 0 keeps the sketch, the result is never lighter than the sketch, shares no bit with the edge, and together with the masked-off bits restores the sketch |
| Pixels.MaskEdges | Code/image_processing.py:66-70 | over a raster, the mask keeps the size, every 255 edge pixel forces 0, every 0 edge pixel keeps the sketch, and no pixel gets lighter |
| Pixels.ToBgr | Code/image_processing.py:51 | gray to BGR gives three samples per pixel, each equal to the input pixel |
| Pipeline.EnsureOdd | Code/image_processing.py:9-14 | `_ensure_odd` returns the least odd number not below `max(1, k)`, and leaves an odd k ≥ 1 alone |
| Pipeline.EnsureOddIdempotent | Code/image_processing.py:9-14 | normalising twice is normalising once |
| Pipeline.BilateralDiameter | Code/image_processing.py:19-21 | the inline diameter normalisation of `apply_bilateral` equals `_ensure_odd` on every integer |
| Pipeline.PassesCompose | Code/image_processing.py:22-23 | m passes followed by n passes are m + n passes, each feeding the next |
| Pipeline.Smooth | Code/image_processing.py:16-24 | an iteration count of at most 1 gives exactly one pass with the `_ensure_odd` diameter; a count n ≥ 1 gives n chained passes |
| Pipeline.SmoothNormalisesDiameter | Code/image_processing.py:19-21 | only the normalised diameter matters: replacing the configured diameter by its `_ensure_odd` value smooths the same way |
| Pipeline.ApplyBilateral | Code/image_processing.py:16-24 | the loop applies the filter `max(1, iterations)` times, each pass on the previous output, with the `_ensure_odd` diameter; it computes `Pipeline.Smooth` |
| Pipeline.MorePassesContinue | Code/image_processing.py:22-23 | raising the iteration count by n smooths the already smoothed raster n more times |
| Pipeline.SmoothPassCount | Code/image_processing.py:22-23 | the filter runs exactly `max(1, iterations)` times: a filter that adds one sample per call grows the raster by exactly that many |
| Pipeline.PassCountGrowth | Code/image_processing.py:22-23 | n passes of a filter that adds one sample per call add n samples |
| Pipeline.EdgeThresholds | Code/image_processing.py:29-32 | the thresholds handed on are ordered: the minimum and then the maximum of the configured pair |
| Pipeline.DetectEdges | Code/image_processing.py:27-34 | Canny is called with the smaller threshold first and the larger second |
| Pipeline.DetectEdgesSymmetric | Code/image_processing.py:29-33 | thresholds (a, b) and (b, a) detect the same edges |
| Pipeline.BaseSketch | Code/image_processing.py:39-49 | the dodge-blend raster keeps the size of the grayscale image when OpenCV's divide keeps the size of its first operand |
| Pipeline.BaseSketchNormalisesKernel | Code/image_processing.py:46-47 | only the normalised blur size matters: replacing the configured size by its `_ensure_odd` value gives the same base sketch |
| Pipeline.PencilSketch | Code/image_processing.py:37-52 | the soft sketch is the dodge-blend base sketch of the grayscale image, each sample repeated in three channels |
| Pipeline.SoftIgnoresEdgeStage | Code/image_processing.py:37-52 | the soft sketch does not depend on the edge thresholds, the Canny detector or the sharpening filter |
| Pipeline.StrongCore | Code/image_processing.py:55-70 | the masked base sketch keeps the raster size; every 255 edge pixel is black, every 0 edge pixel keeps the base sketch, and no pixel is lighter than the base sketch |
| Pipeline.PencilSketchStrong | Code/image_processing.py:55-79 | the strong sketch is the sharpened masked sketch, each sample repeated in three channels |
| Pipeline.NormaliseMode | Code/image_processing.py:97 | a missing or empty mode becomes "pencil"; any other mode becomes the lower-cased text between its leading and trailing whitespace, with no capital and no whitespace at either end |
| Pipeline.NormaliseModeIdempotent | Code/image_processing.py:97 | a non-empty normalised mode normalises to itself |
| Pipeline.SelectMode | Code/image_processing.py:97-105 | the strong branch is taken exactly for the normalised mode "pencil" with a sharpness of at least 50, a missing sharpness counting as 50 |
| Pipeline.ProcessImage | Code/image_processing.py:82-110 | the output is the sketch of the selected branch under the given or default configuration, and the auxiliary map is always empty |
| Pipeline.ProcessImageThresholdSwap | Code/image_processing.py:82-110 | swapping the configured edge thresholds never changes the result |
| Pipeline.MissingModeIsPencil | Code/image_processing.py:97 | a missing or empty mode becomes "pencil", and with no sharpness it gives the strong sketch |
| Pipeline.BlankModeIsSoft | Code/image_processing.py:97-110 | a mode of only spaces strips to "" and falls back to the soft sketch even at sharpness 100 |
| Pipeline.PaddedCapitalisedPencil | Code/image_processing.py:97 | " PeNcIl\n" normalises to "pencil" |
| Pipeline.PencilIsNormal | Code/image_processing.py:97 | "pencil" is unchanged by lower-casing and stripping |
| Pipeline.DispatchExamples | Code/image_processing.py:99-110 | with "pencil", sharpness 20 gives soft and 80 gives strong; a missing sharpness gives strong; 49 and 50 sit on either side of the boundary; any other mode gives soft |
| Pipeline.DefaultsAreNormalised | Code/config.py:7-23 | the default thresholds 50/150 reach Canny unchanged; diameter 9 and blur size 21 are fixed points of normalisation; the default smoothing is one bilateral pass with sigmas 75 |
| Config.OverwritingAFreshConfigLeavesTheDefault | Code/config.py:26-33 | a fresh configuration whose fields are overwritten holds the written values, while `DEFAULT_CONFIG` keeps every default |
| Text.Lower | Code/io_utils.py:12 | lower-casing keeps the length, maps each character on its own and leaves no capital |
| Text.LowerAppend | Code/io_utils.py:12 | lower-casing distributes over concatenation |
| Text.LowerIdempotent | Code/io_utils.py:12 | lower-casing twice is lower-casing once |
| Text.SameUpToCaseLower | Code/io_utils.py:12 | strings that differ only in letter case lower-case to the same string |
| Text.Strip | Code/image_processing.py:97 | strip returns an infix of the input that neither starts nor ends with whitespace; everything before and after it is whitespace |
| Text.StripPadded | Code/image_processing.py:97 | stripping whitespace padding around an unpadded core gives exactly the core |
| Text.StripNoUpper | Code/image_processing.py:97 | stripping a string without capitals leaves none |
| Text.StripLower | Code/image_processing.py:97 | lower-casing then stripping gives the lower-cased text between the leading and trailing whitespace, with no capital left |
| Text.StripAllSpace | Code/image_processing.py:97 | a string of whitespace only strips to "" |
| Text.RFind | Code/io_utils.py:12 | `rfind` returns -1 or an index holding the character, and no later index holds it |
| Text.RFindUnique | Code/io_utils.py:12 | any index with that property is the one `rfind` returns |
| StringOrder.LexLeTotal | Code/io_utils.py:27 | any two strings are comparable |
| StringOrder.LexLeAntisymmetric | Code/io_utils.py:27 | strings ordered both ways are equal |
| StringOrder.LexLeTransitive | Code/io_utils.py:27 | the string order is transitive |
| StringOrder.Insert | Code/io_utils.py:27 | inserting into a sorted list gives a sorted list holding the old elements plus the new one |
| StringOrder.Sort | Code/io_utils.py:27 | sorting gives a sorted permutation of the input |
| StringOrder.SortedPermutationUnique | Code/io_utils.py:27 | two sorted permutations of the same strings are equal, so the sorted order is unique |
| ImagePaths.ImageExtensionsAreExtensions | Code/io_utils.py:7 | each of the six image extensions is a dot followed by characters that are neither dots nor separators |
| ImagePaths.Extension | Code/io_utils.py:12 | the extension is empty or starts with its only dot, never holds a '/', and is no longer than the path |
| ImagePaths.SplitExt | Code/io_utils.py:12 | root and extension concatenate back to the path |
| ImagePaths.LastComponent | Code/io_utils.py:12 | the file name is a suffix of the path and holds no '/', and whatever comes before it ends in '/' |
| ImagePaths.ExtensionOfLastComponent | Code/io_utils.py:12 | the extension of a path is the extension of its file name |
| ImagePaths.NameExtension | Code/io_utils.py:12-13 | for a name without '/', the extension is in a set of extensions exactly when the name ends in one of them with a non-dot before it |
| ImagePaths.ExtensionMeaning | Code/io_utils.py:12-13 | a lower-case path passes exactly when its file name ends in an image extension with a non-dot somewhere before it |
| ImagePaths.IsImageFileMeaning | Code/io_utils.py:10-13 | `is_image_file` accepts exactly the paths whose lower-cased file name ends in an image extension with a non-dot somewhere before it |
| ImagePaths.FinalSuffixDecides | Code/io_utils.py:12-13 | only the text from the file name's last dot on counts, and only when a non-dot precedes that dot |
| ImagePaths.CaseInsensitive | Code/io_utils.py:12 | two paths that differ only in letter case get the same answer |
| ImagePaths.NoDotRejected | Code/io_utils.py:12-13 | a file name without a dot is rejected |
| ImagePaths.OnlyLeadingDotsRejected | Code/io_utils.py:12-13 | a file name whose only dots are leading ones is rejected |
| ImagePaths.DirectoryIgnored | Code/io_utils.py:12 | below a '/', only the file name decides |
| ImagePaths.LastSuffixAccepted | Code/io_utils.py:12-13 | "a.bak.png" is accepted |
| ImagePaths.InnerSuffixIgnored | Code/io_utils.py:12-13 | "a.png.bak" is rejected |
| ImagePaths.HiddenFileRejected | Code/io_utils.py:12-13 | ".png" is rejected |
| ImagePaths.NoExtensionRejected | Code/io_utils.py:12-13 | "photo" is rejected |
| ImagePaths.DottedDirectoryIgnored | Code/io_utils.py:12-13 | "x.png/readme" is rejected |
| ImagePaths.HasImageExtension | Code/io_utils.py:12-13 | the test applied after lower-casing: the `splitext` extension is one of the six; no contract of its own, its meaning is `ImagePaths.ExtensionMeaning` |
| ImagePaths.IsImageFile | Code/io_utils.py:10-13 | `is_image_file` is `HasImageExtension` of the lower-cased path; no contract of its own, its meaning is `ImagePaths.IsImageFileMeaning` |
| ImagePaths.Join | Code/io_utils.py:23 | `os.path.join`: an absolute name replaces the folder; otherwise the result starts with the folder and ends with the name, with a single '/' between them exactly when the folder is non-empty and does not already end in '/' |
| ImagePaths.JoinedNameDecides | Code/io_utils.py:23-24 | a listed name joined to its folder is an image exactly when the bare name is |
| ImagePaths.KeptPaths | Code/io_utils.py:22-25 | every kept path passes the test and is the join of some listed name, every joined path that passes is kept, and there are no more kept paths than listed names; that no path is kept twice is `ImagePaths.KeptPathsDistinct` |
| ImagePaths.JoinInjective | Code/io_utils.py:23 | two names without '/' joined to the same folder give the same path only when they are the same name |
| ImagePaths.FirstNotKeptLater | Code/io_utils.py:22-25 | for names as `os.listdir` returns them (pairwise different, no '/'), the first name's path is not among the paths kept from the later names |
| ImagePaths.KeptPathsDistinct | Code/io_utils.py:22-25 | for such names, the loop appends no path twice: every kept path occurs once |
| ImagePaths.ListImagesInFolder | Code/io_utils.py:16-28 | a non-directory gives []; otherwise the result is sorted, is a permutation of the kept paths, and holds every listed file that is an image; every path in it is a listed name joined to the folder, and is a file and an image |
| ImagePaths.ListingHasNoRepeats | Code/io_utils.py:16-28 | for such names, every path in the sorted listing occurs exactly once |
| ImagePaths.ListingIsTheSortedOne | Code/io_utils.py:27 | any sorted arrangement of the kept paths is the listing returned |
| Interplay.SuggestedBlurIsNormal | Code/auto_params.py:53-58 | every suggested blur size is odd, so the pipeline's normalisation keeps it |
| Interplay.SuggestedSharpnessDispatch | Code/image_processing.py:99-105 | the suggested sharpness selects the strong sketch exactly for graphic-looking images |
| Interplay.FlatImageThresholdsSwapped | Code/image_processing.py:29-33 | the reversed thresholds 10/0 suggested for a flat image reach Canny as 0/10 |

## Left out

- OpenCV numerics are uninterpreted functions: `bilateralFilter`, `GaussianBlur`, `Canny`, `cvtColor` (BGR to gray), `divide` with scale 256, and `filter2D` with the sharpening kernel. Their algorithms are foreign library code.
- The descriptor inputs `gray.std()`, the Laplacian variance, the 80/160 Canny edge map and the 9x9 blur are inputs to the advisor. They are OpenCV or numpy results.
- Floating point: descriptors and sigmas are exact reals. Rounding in `contrast * 0.8`, `contrast * 1.8` and `noise_level / 4` is not modelled, so results exactly at a tier boundary may differ from IEEE doubles.
- Rasters are flat byte sequences without a grid shape. No per-pixel step depends on the shape. The OpenCV filters also see only the flat sequence, so two rasters with the same samples but different widths and heights are not told apart.
- Pipeline.ProcessImage: the strong branch assumes OpenCV keeps raster sizes in `divide` and `Canny` (`SizePreserving`). The model has no other way to know the mask operands match.
- Statistics.EdgeDensity: requires a non-empty edge map. numpy's mean of an empty array is NaN, and OpenCV refuses an empty image before this point.
- Statistics.Smoothness: requires a non-empty raster, for the same reason.
- Text.Lower: maps only the ASCII capitals. Python's Unicode case mapping is not modelled.
- Text.Strip: whitespace is Python's `isspace` on code points up to 0xA0. Wider Unicode whitespace is not modelled.
- ImagePaths.Extension: POSIX paths only, with '/' as the separator. Windows drive letters and backslashes are not modelled.
- `_ensure_odd(k)` calls `int(k)`; the model takes an integer, which is what every caller passes.
- File and folder I/O are parameters or left out. `load_image`, `save_image`, `os.listdir`, `os.path.isdir` and `os.path.isfile` touch the file system; the listing and the two tests are inputs.
- The GUI (`Code/gui_app.py`) is not part of this model. It is Qt widgets and I/O.

=== FILE: advisor.dfy ===
/** The decision table of `auto_suggest_params`: from the five descriptors to a
    suggested parameter set. Every rule is a pure, total function of the
    descriptors; the tier boundaries and clamps are the constants of
    `auto_suggest_params`. */
module Advisor {
  import opened Basics
  import opened Pixels
  import opened Statistics

  /** The record returned to the settings panel: seven parameters, then the
      five descriptors they were computed from. */
  datatype Suggestion = Suggestion(
    sharpness: int, blurKsize: int, sigmaColor: int, sigmaSpace: int, iterations: int,
    cannyLow: int, cannyHigh: int,
    contrast: real, edgeDensity: real, noiseLevel: real, smoothness: real, strongRatio: real)

  /** Python's `int()` of a float: truncation toward zero. */
  function Trunc(x: real): (r: int)
    ensures 0.0 <= x ==> r as real <= x < r as real + 1.0
    ensures x < 0.0 ==> r as real - 1.0 < x <= r as real
  {
    if x >= 0.0 then x.Floor else -((-x).Floor)
  }

  lemma TruncMonotone(x: real, y: real)
    requires x <= y
    ensures Trunc(x) <= Trunc(y)
  {
  }

  /** Flat colour, high contrast and dense, mostly strong edges: the signature
      of logos, lettering and line art. All four comparisons are strict. */
  predicate LooksGraphic(d: Descriptors) {
    && d.edgeDensity > 40.0
    && d.contrast > 50.0
    && d.smoothness < 22.0
    && d.strongRatio > 0.35
  }

  /** Sharpness: 80 (strong sketch) for graphic content, 30 (soft) otherwise. */
  function Sharpness(d: Descriptors): (r: int)
    ensures r == 80 <==> LooksGraphic(d)
    ensures r == 30 <==> !LooksGraphic(d)
  {
    if LooksGraphic(d) then 80 else 30
  }

  /** A single photographic signal is enough to fall back to the soft sketch. */
  lemma AnyNaturalSignalGivesSoft(d: Descriptors)
    requires d.edgeDensity <= 40.0 || d.contrast <= 50.0 || d.smoothness >= 22.0 || d.strongRatio <= 0.35
    ensures Sharpness(d) == 30
  {
  }

  /** Kernel size of the dodge-blend blur by contrast tier; 30 and 60 belong to
      the upper tier. */
  function BlurKsize(contrast: real): (r: int)
    ensures r == 25 <==> contrast < 30.0
    ensures r == 17 <==> 30.0 <= contrast < 60.0
    ensures r == 11 <==> contrast >= 60.0
  {
    if contrast < 30.0 then 25
    else if contrast < 60.0 then 17
    else 11
  }

  /** More contrast never asks for a larger blur. */
  lemma BlurKsizeAntitone(a: real, b: real)
    requires a <= b
    ensures BlurKsize(b) <= BlurKsize(a)
  {
  }

  /** `min(max(int(noise_level / 4), 20), 120)`: a quarter of the noise level,
      rounded down and clamped to [20, 120]. */
  function SigmaColor(noiseLevel: real): (r: int)
    ensures 20 <= r <= 120
    ensures r == 20 <==> noiseLevel < 84.0
    ensures r == 120 <==> noiseLevel >= 480.0
    ensures 84.0 <= noiseLevel < 480.0 ==> r as real <= noiseLevel / 4.0 < r as real + 1.0
  {
    Clamp(Trunc(noiseLevel / 4.0), 20, 120)
  }

  lemma SigmaColorMonotone(a: real, b: real)
    requires a <= b
    ensures SigmaColor(a) <= SigmaColor(b)
  {
    TruncMonotone(a / 4.0, b / 4.0);
  }

  /** `min(max(int(contrast / 2), 10), 50)`: half the contrast, rounded down and
      clamped to [10, 50]. */
  function SigmaSpace(contrast: real): (r: int)
    ensures 10 <= r <= 50
    ensures r == 10 <==> contrast < 22.0
    ensures r == 50 <==> contrast >= 100.0
    ensures 22.0 <= contrast < 100.0 ==> r as real <= contrast / 2.0 < r as real + 1.0
  {
    Clamp(Trunc(contrast / 2.0), 10, 50)
  }

  lemma SigmaSpaceMonotone(a: real, b: real)
    requires a <= b
    ensures SigmaSpace(a) <= SigmaSpace(b)
  {
    TruncMonotone(a / 2.0, b / 2.0);
  }

  /** Smoothing passes by noise tier; 300 and 120 belong to the lower tier. */
  function Iterations(noiseLevel: real): (r: int)
    ensures r == 3 <==> noiseLevel > 300.0
    ensures r == 2 <==> 120.0 < noiseLevel <= 300.0
    ensures r == 1 <==> noiseLevel <= 120.0
  {
    if noiseLevel > 300.0 then 3
    else if noiseLevel > 120.0 then 2
    else 1
  }

  /** A noisier image never gets fewer smoothing passes. */
  lemma IterationsMonotone(a: real, b: real)
    requires a <= b
    ensures Iterations(a) <= Iterations(b)
  {
  }

  /** `int(max(10, contrast * 0.8))`: never below 10, and 10 exactly up to a
      contrast of 13.75. */
  function CannyLow(contrast: real): (r: int)
    ensures r >= 10
    ensures r == 10 <==> contrast < 13.75
    ensures contrast >= 12.5 ==> r as real <= contrast * 0.8 < r as real + 1.0
  {
    Trunc(RealMax(10.0, contrast * 0.8))
  }

  /** `int(min(200, contrast * 1.8))`: never above 200, and 200 exactly from a
      contrast of 1000/9 on. */
  function CannyHigh(contrast: real): (r: int)
    ensures r <= 200
    ensures r == 200 <==> contrast >= 1000.0 / 9.0
    ensures 0.0 <= contrast ==> 0 <= r
    ensures 0.0 <= contrast < 1000.0 / 9.0 ==> r as real <= contrast * 1.8 < r as real + 1.0
  {
    Trunc(RealMin(200.0, contrast * 1.8))
  }

  /** The two thresholds are not ordered in general: a flat image (contrast 0)
      gets low 10 and high 0. */
  lemma CannyOrderNotGuaranteed()
    ensures CannyLow(0.0) == 10 && CannyHigh(0.0) == 0
    ensures CannyLow(0.0) > CannyHigh(0.0)
  {
  }

  /** Exactly which non-negative contrasts give ordered thresholds: from 50/9
      (where `1.8 * contrast` reaches 10) up to, but excluding, 251.25 (where
      `0.8 * contrast` reaches 201). */
  lemma CannyOrderedExactly(contrast: real)
    requires contrast >= 0.0
    ensures CannyLow(contrast) <= CannyHigh(contrast) <==> 50.0 / 9.0 <= contrast < 251.25
  {
    var low := CannyLow(contrast);
    var high := CannyHigh(contrast);
    if contrast < 50.0 / 9.0 {
      assert contrast * 1.8 < 10.0;
      assert high < 10;
    } else if contrast < 12.5 {
      assert low == 10;
      assert contrast * 1.8 >= 10.0;
      assert high >= 10;
    } else if contrast < 1000.0 / 9.0 {
      assert contrast * 0.8 <= contrast * 1.8;
      TruncMonotone(contrast * 0.8, contrast * 1.8);
    } else if contrast < 251.25 {
      assert contrast * 0.8 < 201.0;
      assert low <= 200;
    } else {
      assert contrast * 0.8 >= 201.0;
      assert low >= 201;
    }
  }

  /** `auto_suggest_params` from its descriptors: every parameter lies in its
      range and follows its rule, and the descriptors are echoed unchanged. */
  function Suggest(d: Descriptors): (s: Suggestion)
    ensures s.sharpness in {30, 80}
    ensures s.blurKsize in {11, 17, 25}
    ensures 20 <= s.sigmaColor <= 120 && 10 <= s.sigmaSpace <= 50
    ensures 1 <= s.iterations <= 3
    ensures s.cannyLow >= 10 && s.cannyHigh <= 200
    ensures s.sharpness == 80 <==> LooksGraphic(d)
    ensures s.blurKsize == 25 <==> d.contrast < 30.0
    ensures s.blurKsize == 11 <==> d.contrast >= 60.0
    ensures s.iterations == 3 <==> d.noiseLevel > 300.0
    ensures s.iterations == 1 <==> d.noiseLevel <= 120.0
    ensures s.sigmaColor == SigmaColor(d.noiseLevel) && s.sigmaSpace == SigmaSpace(d.contrast)
    ensures s.cannyLow == CannyLow(d.contrast) && s.cannyHigh == CannyHigh(d.contrast)
    ensures s.contrast == d.contrast && s.edgeDensity == d.edgeDensity && s.noiseLevel == d.noiseLevel
    ensures s.smoothness == d.smoothness && s.strongRatio == d.strongRatio
  {
    Suggestion(
      Sharpness(d), BlurKsize(d.contrast), SigmaColor(d.noiseLevel), SigmaSpace(d.contrast),
      Iterations(d.noiseLevel), CannyLow(d.contrast), CannyHigh(d.contrast),
      d.contrast, d.edgeDensity, d.noiseLevel, d.smoothness, d.strongRatio)
  }

  /** The whole of `auto_suggest_params` on a non-empty grayscale raster, given the
      OpenCV results it reads: standard deviation, Laplacian variance, the 80/160
      Canny edge map and the 9x9 blur. */
  function AutoSuggest(contrast: real, noiseLevel: real, gray: Image, edges: Image, blurred: Image): (s: Suggestion)
    requires |gray| == |blurred| > 0 && |edges| > 0
    ensures s == Suggest(Describe(contrast, noiseLevel, gray, edges, blurred))
    ensures 0.0 <= s.edgeDensity <= 255.0 && 0.0 <= s.smoothness <= 255.0 && s.strongRatio >= 0.0
    ensures s.smoothness == 0.0 <==> gray == blurred
  {
    Suggest(Describe(contrast, noiseLevel, gray, edges, blurred))
  }

  /** A flat raster (blank edge map, blur that changes nothing, zero contrast and
      zero noise) gets the soft sketch, one smoothing pass and the largest blur. */
  lemma FlatImageScenario(gray: Image, edges: Image)
    requires |gray| > 0 && |edges| > 0
    requires forall i :: 0 <= i < |edges| ==> edges[i] == 0
    ensures var s := AutoSuggest(0.0, 0.0, gray, edges, gray);
            && s.edgeDensity == 0.0 && s.smoothness == 0.0 && s.strongRatio == 0.0
            && s.sharpness == 30 && s.iterations == 1 && s.blurKsize == 25
            && s.sigmaColor == 20 && s.sigmaSpace == 10
            && s.cannyLow == 10 && s.cannyHigh == 0
  {
  }
}

=== FILE: basics.dfy ===
/** The Python built-ins the sketch app leans on: `None` for a missing
    argument, and `min`/`max`. */
module Basics {

  /** An argument that may be `None`. */
  datatype Option<T> = None | Some(value: T)

  /** `x if x is not None else fallback`. */
  function OrDefault<T>(x: Option<T>, fallback: T): T {
    if x.Some? then x.value else fallback
  }

  function Max(a: int, b: int): int {
    if a >= b then a else b
  }

  function Min(a: int, b: int): int {
    if a <= b then a else b
  }

  function RealMax(a: real, b: real): real {
    if a >= b then a else b
  }

  function RealMin(a: real, b: real): real {
    if a <= b then a else b
  }

  /** `min(max(x, lo), hi)`. */
  function Clamp(x: int, lo: int, hi: int): (r: int)
    ensures lo <= hi ==> lo <= r <= hi
    ensures lo <= x <= hi ==> r == x
    ensures lo <= hi && x < lo ==> r == lo
    ensures lo <= hi && hi < x ==> r == hi
  {
    Min(Max(x, lo), hi)
  }
}

=== FILE: config.dfy ===
/** The configuration records the sketch pipeline consumes, with their defaults.
    Records are Dafny values: an `AppConfig` changed by a caller is a new value,
    so no change can reach another configuration or the shared default. */
module Config {

  /** Thresholds of the Canny edge detector. */
  datatype EdgeConfig = EdgeConfig(lowThreshold: int, highThreshold: int)

  /** The bilateral (edge-preserving) smoothing filter and its repeat count. */
  datatype BilateralConfig = BilateralConfig(diameter: int, sigmaColor: real, sigmaSpace: real, iterations: int)

  /** Kernel size of the Gaussian blur in the dodge blend. */
  datatype SketchConfig = SketchConfig(blurKsize: int)

  datatype AppConfig = AppConfig(edge: EdgeConfig, smooth: BilateralConfig, sketch: SketchConfig)

  function DefaultEdge(): EdgeConfig {
    EdgeConfig(50, 150)
  }

  function DefaultBilateral(): BilateralConfig {
    BilateralConfig(9, 75.0, 75.0, 1)
  }

  function DefaultSketch(): SketchConfig {
    SketchConfig(21)
  }

  /** `AppConfig()`: every field comes from its record's own default. */
  function NewAppConfig(): AppConfig {
    AppConfig(DefaultEdge(), DefaultBilateral(), DefaultSketch())
  }

  /** `DEFAULT_CONFIG`, the configuration used when the caller passes none. */
  const DefaultConfig: AppConfig := NewAppConfig()

  /** A caller that builds a configuration and overwrites all its fields, as the
      settings panel does, gets exactly the values it wrote, while the shared
      default keeps every default value. */
  lemma OverwritingAFreshConfigLeavesTheDefault(low: int, high: int, diameter: int, sigmaColor: real,
                                                sigmaSpace: real, iterations: int, blurKsize: int)
    ensures var c := NewAppConfig().(edge := EdgeConfig(low, high),
                                     smooth := BilateralConfig(diameter, sigmaColor, sigmaSpace, iterations),
                                     sketch := SketchConfig(blurKsize));
            && c.edge.lowThreshold == low && c.edge.highThreshold == high
            && c.smooth.diameter == diameter && c.smooth.iterations == iterations
            && c.sketch.blurKsize == blurKsize
            && DefaultConfig == AppConfig(EdgeConfig(50, 150), BilateralConfig(9, 75.0, 75.0, 1), SketchConfig(21))
  {
  }
}

=== FILE: image_paths.dfy ===
/** Recognising image files by name (`is_image_file`) and listing the images of
    a folder (`list_images_in_folder`). Paths follow POSIX rules: '/' is the
    only separator and '.' the extension separator. */
module ImagePaths {
  import opened Text
  import opened StringOrder

  /** `IMAGE_EXTENSIONS`. */
  const ImageExtensions: set<string> := {".png", ".jpg", ".jpeg", ".bmp", ".tif", ".tiff"}

  /** Every character of `s` at an index from `lo` up to `hi` is a dot. */
  predicate DotsBetween(s: string, lo: int, hi: int) {
    forall k :: lo <= k < hi && 0 <= k < |s| ==> s[k] == '.'
  }

  /** The text from a last dot on starts with that dot and holds no other dot,
      and none of the separators after it. */
  lemma DotSuffix(p: string, dot: nat)
    requires dot < |p| && p[dot] == '.'
    requires forall k :: dot < k < |p| ==> p[k] != '.' && p[k] != '/'
    ensures var e := p[dot..];
            && e[0] == '.'
            && (forall k :: 0 < k < |e| ==> e[k] != '.')
            && (forall k :: 0 <= k < |e| ==> e[k] != '/')
  {
    var e := p[dot..];
    forall k | 0 <= k < |e|
      ensures e[k] == p[dot + k]
    {
    }
  }

  /** The extension `posixpath.splitext` splits off: the text from the last dot
      of the last path component on, provided that component has something
      other than dots before that dot; otherwise nothing. */
  function Extension(p: string): (e: string)
    ensures |e| <= |p|
    ensures e != [] ==> e[0] == '.' && (forall k :: 0 < k < |e| ==> e[k] != '.')
    ensures forall k :: 0 <= k < |e| ==> e[k] != '/'
  {
    var sep := RFind(p, '/');
    var dot := RFind(p, '.');
    if dot > sep && !DotsBetween(p, sep + 1, dot) then
      DotSuffix(p, dot);
      p[dot..]
    else
      []
  }

  /** `posixpath.splitext`: the root and the extension, which concatenate back
      to the path. */
  function SplitExt(p: string): (r: (string, string))
    ensures r.0 + r.1 == p
    ensures r.1 == Extension(p)
  {
    var sep := RFind(p, '/');
    var dot := RFind(p, '.');
    if dot > sep && !DotsBetween(p, sep + 1, dot) then
      (p[..dot], p[dot..])
    else
      (p, [])
  }

  /** On a name without '/', the extension starts at the last dot, when there is
      one with something other than dots before it. */
  lemma ExtensionOfName(n: string)
    requires '/' !in n
    ensures var dot := RFind(n, '.');
            Extension(n) == if 0 < dot && !DotsBetween(n, 0, dot) then n[dot..] else []
  {
    RFindUnique(n, '/', -1);
  }

  /** The text after the last '/': the file name of a path. */
  function LastComponent(p: string): (name: string)
    ensures forall k :: 0 <= k < |name| ==> name[k] != '/'
    ensures |name| <= |p|
    ensures |name| < |p| ==> p[|p| - |name| - 1] == '/'
    ensures name == p[|p| - |name|..]
  {
    var sep := RFind(p, '/');
    if sep < 0 then p else p[sep + 1..]
  }

  /** A dot followed by at least one character, none of them a dot or a '/'. */
  predicate IsExtension(e: string) {
    |e| >= 2 && e[0] == '.' && forall k :: 0 < k < |e| ==> e[k] != '.' && e[k] != '/'
  }

  /** Every image extension is a dot followed by letters. */
  lemma ImageExtensionsAreExtensions()
    ensures forall e :: e in ImageExtensions ==> IsExtension(e)
  {
  }

  /** A file name that ends in one of `exts`, with something other than dots in
      front of it. */
  ghost predicate EndsWithExtension(name: string, exts: set<string>) {
    exists e :: e in exts && |e| < |name| && name[|name| - |e|..] == e && !DotsBetween(name, 0, |name| - |e|)
  }

  ghost predicate EndsWithImageExtension(name: string) {
    EndsWithExtension(name, ImageExtensions)
  }

  /** The last occurrence in a suffix is the last occurrence in the whole,
      shifted, when it lies in the suffix. */
  lemma RFindSuffix(q: string, o: nat, c: char)
    requires 0 < o <= |q|
    ensures RFind(q[o..], c) == if RFind(q, c) >= o then RFind(q, c) - o else -1
  {
    var n := q[o..];
    assert forall k :: 0 <= k < |n| ==> n[k] == q[o + k];
    var r := RFind(q, c);
    if r >= o {
      RFindUnique(n, c, r - o);
    } else {
      RFindUnique(n, c, -1);
    }
  }

  /** Dots between two indices of a suffix, measured in the suffix or in the whole. */
  lemma DotsShift(q: string, o: nat, hi: nat)
    requires 0 < o <= hi <= |q|
    ensures DotsBetween(q, o, hi) == DotsBetween(q[o..], 0, hi - o)
  {
    var n := q[o..];
    assert forall k :: 0 <= k < |n| ==> n[k] == q[o + k];
  }

  /** The extension of the name after the last '/', when the last dot lies
      inside that name with at least one character before it ... */
  lemma ExtensionInName(q: string, o: nat, dot: nat)
    requires 0 < o < dot < |q|
    requires RFind(q, '/') == o - 1 && RFind(q, '.') == dot
    ensures Extension(q[o..]) == if DotsBetween(q, o, dot) then [] else q[dot..]
  {
    RFindSuffix(q, o, '/');
    RFindSuffix(q, o, '.');
    DotsShift(q, o, dot);
    assert q[dot..] == q[o..][dot - o..];
  }

  /** ... and when it does not. */
  lemma NoExtensionInName(q: string, o: nat)
    requires 0 < o <= |q|
    requires RFind(q, '/') == o - 1 && RFind(q, '.') <= o
    ensures Extension(q[o..]) == []
  {
    RFindSuffix(q, o, '/');
    RFindSuffix(q, o, '.');
  }

  /** Dots and text before the last '/' never matter to the extension. */
  lemma ExtensionOfLastComponent(q: string)
    ensures Extension(q) == Extension(LastComponent(q))
  {
    var sep := RFind(q, '/');
    if sep >= 0 {
      var o := sep + 1;
      assert LastComponent(q) == q[o..];
      var dot := RFind(q, '.');
      if dot > o {
        ExtensionInName(q, o, dot);
      } else {
        NoExtensionInName(q, o);
      }
    }
  }

  /** An extension that ends a name, with a non-dot in front, is the one
      `Extension` finds ... */
  lemma EndingExtensionFound(n: string, e: string)
    requires '/' !in n
    requires IsExtension(e) && |e| < |n| && n[|n| - |e|..] == e && !DotsBetween(n, 0, |n| - |e|)
    ensures Extension(n) == e
  {
    var k := |n| - |e|;
    assert forall m :: k <= m < |n| ==> n[m] == e[m - k];
    RFindUnique(n, '.', k);
    ExtensionOfName(n);
  }

  /** ... and a non-empty extension found ends the name, with a non-dot in front. */
  lemma FoundExtensionEnds(n: string)
    requires '/' !in n
    requires Extension(n) != []
    ensures var e := Extension(n);
            |e| < |n| && n[|n| - |e|..] == e && !DotsBetween(n, 0, |n| - |e|)
  {
    ExtensionOfName(n);
  }

  /** For a name without '/', the extension is one of `exts` exactly when the
      name ends in one of them with a non-dot character somewhere in front. */
  lemma NameExtension(n: string, exts: set<string>)
    requires '/' !in n
    requires forall e :: e in exts ==> IsExtension(e)
    ensures Extension(n) in exts <==> EndsWithExtension(n, exts)
  {
    if EndsWithExtension(n, exts) {
      var e :| e in exts && |e| < |n| && n[|n| - |e|..] == e && !DotsBetween(n, 0, |n| - |e|);
      EndingExtensionFound(n, e);
    }
    if Extension(n) in exts {
      FoundExtensionEnds(n);
    }
  }

  /** The test `is_image_file` applies to the lower-cased path: its extension
      is one of the image extensions. */
  predicate HasImageExtension(q: string) {
    Extension(q) in ImageExtensions
  }

  /** `is_image_file`. */
  predicate IsImageFile(path: string) {
    HasImageExtension(Lower(path))
  }

  /** Only the file name matters, and it must end in an image extension with
      something other than dots in front of it. */
  lemma ExtensionMeaning(q: string)
    ensures HasImageExtension(q) <==> EndsWithImageExtension(LastComponent(q))
  {
    ExtensionOfLastComponent(q);
    ImageExtensionsAreExtensions();
    NameExtension(LastComponent(q), ImageExtensions);
  }

  /** What `is_image_file` accepts: paths whose lower-cased file name ends in an
      image extension with something other than dots in front of it. */
  lemma IsImageFileMeaning(path: string)
    ensures IsImageFile(path) <==> EndsWithImageExtension(LastComponent(Lower(path)))
  {
    ExtensionMeaning(Lower(path));
  }

  /** Only the final dot-suffix of the file name counts: the (lower-cased) path
      passes exactly when the text from the name's last dot on is an image
      extension and the name has something other than dots before that dot. */
  lemma FinalSuffixDecides(q: string)
    ensures var n := LastComponent(q);
            var dot := RFind(n, '.');
            HasImageExtension(q) <==> 0 < dot && !DotsBetween(n, 0, dot) && n[dot..] in ImageExtensions
  {
    ExtensionOfLastComponent(q);
    ExtensionOfName(LastComponent(q));
  }

  /** Letter case does not matter. */
  lemma CaseInsensitive(p: string, q: string)
    requires SameUpToCase(p, q)
    ensures IsImageFile(p) == IsImageFile(q)
  {
    SameUpToCaseLower(p, q);
  }

  /** A file name without a dot never passes. */
  lemma NoDotRejected(q: string)
    requires '.' !in LastComponent(q)
    ensures !HasImageExtension(q)
  {
    FinalSuffixDecides(q);
  }

  /** A file name whose only dots are leading ones (".png", "..jpg") never
      passes: the extension would have only dots in front of it. */
  lemma OnlyLeadingDotsRejected(q: string, k: nat)
    requires var n := LastComponent(q);
             k <= |n| && DotsBetween(n, 0, k) && forall m :: k <= m < |n| ==> n[m] != '.'
    ensures !HasImageExtension(q)
  {
    FinalSuffixDecides(q);
  }

  /** Lower-casing keeps the separator where it is ... */
  lemma LowerAroundSlash(dir: string, name: string)
    ensures Lower(dir + "/" + name) == Lower(dir) + "/" + Lower(name)
  {
    LowerAppend(dir + "/", name);
    LowerAppend(dir, "/");
  }

  /** ... and never makes one. */
  lemma LowerMakesNoSlash(name: string)
    requires '/' !in name
    ensures '/' !in Lower(name)
  {
    forall i | 0 <= i < |name|
      ensures Lower(name)[i] != '/'
    {
      assert name[i] != '/';
    }
  }

  lemma LastComponentOfName(b: string)
    requires '/' !in b
    ensures LastComponent(b) == b
  {
    RFindUnique(b, '/', -1);
  }

  lemma LastComponentAfterSlash(a: string, b: string)
    requires '/' !in b
    ensures LastComponent(a + "/" + b) == b
  {
    var q := a + "/" + b;
    assert forall k :: |a| < k < |q| ==> q[k] == b[k - |a| - 1];
    RFindUnique(q, '/', |a|);
    assert q[|a| + 1..] == b;
  }

  /** Below a '/', only the name after it decides. */
  lemma ExtensionBelowSlash(a: string, b: string)
    requires '/' !in b
    ensures HasImageExtension(a + "/" + b) == HasImageExtension(b)
  {
    ExtensionOfLastComponent(a + "/" + b);
    ExtensionOfLastComponent(b);
    LastComponentAfterSlash(a, b);
    LastComponentOfName(b);
  }

  /** Dots in the directory part are ignored: below a '/', only the file name
      decides. */
  lemma DirectoryIgnored(dir: string, name: string)
    requires '/' !in name
    ensures IsImageFile(dir + "/" + name) == IsImageFile(name)
  {
    LowerAroundSlash(dir, name);
    LowerMakesNoSlash(name);
    ExtensionBelowSlash(Lower(dir), Lower(name));
  }

  /** The extension of a name whose last dot, at `dot`, has a non-dot before it. */
  lemma SplitAtLastDot(n: string, dot: nat, k: nat)
    requires '/' !in n
    requires dot < |n| && n[dot] == '.' && forall m :: dot < m < |n| ==> n[m] != '.'
    requires k < dot && n[k] != '.'
    ensures Extension(n) == n[dot..]
  {
    RFindUnique(n, '/', -1);
    RFindUnique(n, '.', dot);
  }

  /** A name with two suffixes: only the one after the last dot is its extension. */
  lemma DoubleSuffixExtension(n: string)
    requires n == "a.bak.png" || n == "a.png.bak"
    ensures Extension(n) == n[5..]
    ensures Lower(n) == n
  {
    LowerOfLowerCase(n);
    SplitAtLastDot(n, 5, 0);
  }

  lemma HiddenFileExtension()
    ensures Extension(".png") == ""
    ensures Lower(".png") == ".png"
  {
    LowerOfLowerCase(".png");
    RFindUnique(".png", '/', -1);
    RFindUnique(".png", '.', 0);
  }

  lemma NoDotExtension()
    ensures Extension("photo") == ""
    ensures Lower("photo") == "photo"
  {
    LowerOfLowerCase("photo");
    RFindUnique("photo", '.', -1);
  }

  lemma DottedDirectoryExtension()
    ensures Extension("x.png/readme") == ""
    ensures Lower("x.png/readme") == "x.png/readme"
  {
    LowerOfLowerCase("x.png/readme");
    RFindUnique("x.png/readme", '/', 5);
    RFindUnique("x.png/readme", '.', 1);
  }

  /** Only the last suffix counts: "a.bak.png" is an image ... */
  lemma LastSuffixAccepted()
    ensures IsImageFile("a.bak.png")
  {
    DoubleSuffixExtension("a.bak.png");
    assert "a.bak.png"[5..] == ".png";
  }

  /** ... and "a.png.bak" is not. */
  lemma InnerSuffixIgnored()
    ensures !IsImageFile("a.png.bak")
  {
    DoubleSuffixExtension("a.png.bak");
    assert "a.png.bak"[5..] == ".bak";
  }

  /** A hidden file named like an extension is not an image. */
  lemma HiddenFileRejected()
    ensures !IsImageFile(".png")
  {
    HiddenFileExtension();
  }

  /** A name without a dot is not an image ... */
  lemma NoExtensionRejected()
    ensures !IsImageFile("photo")
  {
    NoDotExtension();
  }

  /** ... even below a directory whose name has one. */
  lemma DottedDirectoryIgnored()
    ensures !IsImageFile("x.png/readme")
  {
    DottedDirectoryExtension();
  }

  /** `os.path.join(folder, name)` for one name: an absolute name replaces the
      folder; otherwise the name follows the folder, with one '/' put between
      them unless the folder is empty or already ends in '/'. */
  function Join(folder: string, name: string): (p: string)
    ensures |name| <= |p| && forall k :: 0 <= k < |name| ==> p[|p| - |name| + k] == name[k]
    ensures |name| > 0 && name[0] == '/' ==> p == name
    ensures !(|name| > 0 && name[0] == '/') ==>
              && |folder| + |name| <= |p| <= |folder| + |name| + 1
              && (forall k :: 0 <= k < |folder| ==> p[k] == folder[k])
              && (|p| == |folder| + |name| <==> folder == [] || folder[|folder| - 1] == '/')
              && (|p| > |folder| + |name| ==> p[|folder|] == '/')
  {
    if |name| > 0 && name[0] == '/' then name
    else if folder == [] || folder[|folder| - 1] == '/' then folder + name
    else folder + "/" + name
  }

  /** Joining a listed name to its folder leaves the name in charge: the joined
      path is an image exactly when the bare name is. */
  lemma JoinedNameDecides(folder: string, name: string)
    requires '/' !in name
    ensures IsImageFile(Join(folder, name)) == IsImageFile(name)
  {
    assert !(|name| > 0 && name[0] == '/');
    if folder == [] {
      assert Join(folder, name) == name;
    } else if folder[|folder| - 1] == '/' {
      var dir := folder[..|folder| - 1];
      assert folder == dir + "/";
      assert Join(folder, name) == dir + "/" + name;
      DirectoryIgnored(dir, name);
    } else {
      assert Join(folder, name) == folder + "/" + name;
      DirectoryIgnored(folder, name);
    }
  }

  /** The test a joined path has to pass to be listed: it is a file
      (`os.path.isfile`, given) and `is_image_file` accepts it. */
  function Wanted(isFile: string -> bool): string -> bool {
    p => isFile(p) && IsImageFile(p)
  }

  /** The loop of `list_images_in_folder`: the joined paths that pass `keep`,
      in listing order. */
  function KeptPaths(folder: string, names: seq<string>, keep: string -> bool): (kept: seq<string>)
    ensures |kept| <= |names|
    ensures forall p :: p in kept ==> keep(p)
    ensures forall i :: 0 <= i < |names| && keep(Join(folder, names[i])) ==> Join(folder, names[i]) in kept
    ensures forall p :: p in kept ==> exists i :: 0 <= i < |names| && p == Join(folder, names[i])
  {
    if names == [] then []
    else
      var path := Join(folder, names[0]);
      var rest := KeptPaths(folder, names[1..], keep);
      assert forall i :: 1 <= i < |names| ==> names[i] == names[1..][i - 1];
      if keep(path) then [path] + rest else rest
  }

  /** No path occurs more than once. */
  predicate NoRepeats(s: seq<string>) {
    forall p :: p in s ==> multiset(s)[p] <= 1
  }

  /** The names `os.listdir` returns: pairwise different, none holding a '/'. */
  predicate ListedNames(names: seq<string>) {
    && (forall i, j :: 0 <= i < j < |names| ==> names[i] != names[j])
    && (forall i :: 0 <= i < |names| ==> '/' !in names[i])
  }

  /** Joining to one folder keeps relative names apart. */
  lemma JoinInjective(folder: string, a: string, b: string)
    requires '/' !in a && '/' !in b
    requires Join(folder, a) == Join(folder, b)
    ensures a == b
  {
    var p := Join(folder, a);
    assert |a| > 0 ==> a[0] != '/';
    assert |b| > 0 ==> b[0] != '/';
    assert |a| == |b|;
    forall k | 0 <= k < |a|
      ensures a[k] == b[k]
    {
      assert a[k] == p[|p| - |a| + k];
      assert b[k] == p[|p| - |b| + k];
    }
  }

  /** A path not yet listed can be put in front without repeating anything. */
  lemma ConsNoRepeats(x: string, s: seq<string>)
    requires NoRepeats(s) && x !in s
    ensures NoRepeats([x] + s)
  {
    assert multiset([x] + s) == multiset{x} + multiset(s);
  }

  lemma ListedTail(names: seq<string>)
    requires ListedNames(names) && names != []
    ensures ListedNames(names[1..])
  {
    assert forall i :: 0 <= i < |names[1..]| ==> names[1..][i] == names[i + 1];
  }

  /** The first name's path is not among the paths kept from the later names. */
  lemma FirstNotKeptLater(folder: string, names: seq<string>, keep: string -> bool)
    requires ListedNames(names) && names != []
    ensures Join(folder, names[0]) !in KeptPaths(folder, names[1..], keep)
  {
    var path := Join(folder, names[0]);
    if path in KeptPaths(folder, names[1..], keep) {
      var i :| 0 <= i < |names[1..]| && path == Join(folder, names[1..][i]);
      JoinInjective(folder, names[0], names[i + 1]);
      assert false;
    }
  }

  /** Each listed name contributes at most once: different names give different
      paths, so no kept path is repeated. */
  lemma {:induction false} KeptPathsDistinct(folder: string, names: seq<string>, keep: string -> bool)
    requires ListedNames(names)
    ensures NoRepeats(KeptPaths(folder, names, keep))
  {
    if names != [] {
      var path := Join(folder, names[0]);
      var rest := KeptPaths(folder, names[1..], keep);
      ListedTail(names);
      KeptPathsDistinct(folder, names[1..], keep);
      FirstNotKeptLater(folder, names, keep);
      if keep(path) {
        ConsNoRepeats(path, rest);
      }
    }
  }

  /** `list_images_in_folder`, with `os.path.isdir(folder)`, `os.listdir(folder)`
      and `os.path.isfile` given: nothing for a non-directory, otherwise the
      joined paths of the listed names that are image files, each one, in sorted
      order. */
  function ListImagesInFolder(folder: string, isDir: bool, names: seq<string>, isFile: string -> bool): (r: seq<string>)
    ensures !isDir ==> r == []
    ensures Sorted(r)
    ensures isDir ==> multiset(r) == multiset(KeptPaths(folder, names, Wanted(isFile)))
    ensures forall p :: p in r ==> isFile(p) && IsImageFile(p)
    ensures forall p :: p in r ==> exists i :: 0 <= i < |names| && p == Join(folder, names[i])
    ensures isDir ==> forall i :: (0 <= i < |names| && isFile(Join(folder, names[i])) && IsImageFile(Join(folder, names[i])))
                                 ==> Join(folder, names[i]) in r
  {
    if !isDir then []
    else
      var keep := Wanted(isFile);
      assert forall p :: keep(p) == (isFile(p) && IsImageFile(p));
      var kept := KeptPaths(folder, names, keep);
      var r := Sort(kept);
      assert forall p :: p in r <==> p in multiset(kept);
      assert forall p :: p in r ==> p in kept;
      r
  }

  /** Every image of the folder is listed exactly once. */
  lemma ListingHasNoRepeats(folder: string, isDir: bool, names: seq<string>, isFile: string -> bool)
    requires ListedNames(names)
    ensures NoRepeats(ListImagesInFolder(folder, isDir, names, isFile))
  {
    if isDir {
      KeptPathsDistinct(folder, names, Wanted(isFile));
    }
  }

  /** The listing is determined by its contents alone: any sorted arrangement of
      the kept paths is the one returned. */
  lemma ListingIsTheSortedOne(folder: string, names: seq<string>, isFile: string -> bool, other: seq<string>)
    requires Sorted(other) && multiset(other) == multiset(KeptPaths(folder, names, Wanted(isFile)))
    ensures ListImagesInFolder(folder, true, names, isFile) == other
  {
    SortedPermutationUnique(ListImagesInFolder(folder, true, names, isFile), other);
  }
}

=== FILE: interplay.dfy ===
/** How the advisor's suggestions fare once they reach the pipeline. */
module Interplay {
  import opened Basics
  import opened Pixels
  import opened Config
  import opened Statistics
  import opened Advisor
  import opened Pipeline

  /** Every suggested blur size is odd, so kernel-size normalisation keeps it. */
  lemma SuggestedBlurIsNormal(d: Descriptors)
    ensures IsOdd(Suggest(d).blurKsize)
    ensures EnsureOdd(Suggest(d).blurKsize) == Suggest(d).blurKsize
  {
    var k := Suggest(d).blurKsize;
    assert k == 11 || k == 17 || k == 25;
  }

  /** Fed back as the sharpness of a "pencil" request, the suggestion selects the
      strong sketch exactly for graphic content. */
  lemma SuggestedSharpnessDispatch(d: Descriptors)
    ensures SelectMode(Some("pencil"), Some(Suggest(d).sharpness)) == Strong <==> LooksGraphic(d)
    ensures SelectMode(None, Some(Suggest(d).sharpness)) == Strong <==> LooksGraphic(d)
  {
    PencilIsNormal();
  }

  /** For a flat image the suggested thresholds are out of order (10 and 0), and
      edge detection runs Canny with them swapped. */
  lemma FlatImageThresholdsSwapped(f: Filters, gray: Image)
    ensures DetectEdges(f, gray, EdgeConfig(CannyLow(0.0), CannyHigh(0.0))) == f.canny(gray, 0, 10)
  {
    CannyOrderNotGuaranteed();
  }
}

=== FILE: pipeline.dfy ===
/** The control logic of the sketch pipeline: kernel-size normalisation, the
    repeated smoothing pass, the Canny threshold swap, the dodge blend, the edge
    mask, and the soft/strong dispatch of `process_image`. The OpenCV filters
    are uninterpreted functions supplied in a `Filters` record. */
module Pipeline {
  import opened Basics
  import opened Text
  import opened Pixels
  import opened Config

  predicate IsOdd(k: int) {
    k % 2 == 1
  }

  /** A kernel size the filters accept: odd and at least one. */
  type OddSize = k: int | 1 <= k && IsOdd(k) witness 1

  /** The OpenCV calls, as functions whose numerics are not modelled. Because the
      smoothing and blur filters take an `OddSize`, the model cannot hand them an
      even kernel. */
  datatype Filters = Filters(
    toGray: Image -> Image,                         // cvtColor(BGR2GRAY)
    bilateral: (Image, OddSize, real, real) -> Image, // bilateralFilter(src, d, sigmaColor, sigmaSpace)
    gaussian: (Image, OddSize) -> Image,            // GaussianBlur(src, (k, k), 0)
    divide: (Image, Image) -> Image,                // divide(src1, src2, scale=256)
    canny: (Image, int, int) -> Image,              // Canny(src, low, high)
    sharpen: Image -> Image)                        // filter2D with the 3x3 sharpening kernel

  /** The OpenCV results keep the size of their (first) input raster, as the
      edge mask needs. */
  ghost predicate SizePreserving(f: Filters) {
    && (forall a: Image, b: Image :: |f.divide(a, b)| == |a|)
    && (forall a: Image, low: int, high: int :: |f.canny(a, low, high)| == |a|)
  }

  /** `r` is the least odd number that is not below `m`. */
  ghost predicate LeastOddAtLeast(r: int, m: int) {
    IsOdd(r) && m <= r && r - 2 < m
  }

  /** `_ensure_odd`: the least odd kernel size that is at least `max(1, k)`. */
  function EnsureOdd(k: int): (r: OddSize)
    ensures LeastOddAtLeast(r, Max(1, k))
    ensures 1 <= k && IsOdd(k) ==> r == k
  {
    var atLeastOne := Max(1, k);
    if atLeastOne % 2 == 0 then atLeastOne + 1 else atLeastOne
  }

  /** Normalising a normalised size changes nothing. */
  lemma EnsureOddIdempotent(k: int)
    ensures EnsureOdd(EnsureOdd(k)) == EnsureOdd(k)
  {
  }

  /** The diameter normalisation written out inside `apply_bilateral`; it is the
      same as `_ensure_odd` on every integer. */
  function BilateralDiameter(diameter: int): (d: OddSize)
    ensures d == EnsureOdd(diameter)
  {
    var d := if 1 >= diameter then 1 else diameter;
    if d % 2 == 0 then d + 1 else d
  }

  /** `n` bilateral passes, each on the previous pass's output. */
  function Passes(filter: (Image, OddSize, real, real) -> Image, img: Image, d: OddSize,
                  sigmaColor: real, sigmaSpace: real, n: nat): Image
  {
    if n == 0 then img else filter(Passes(filter, img, d, sigmaColor, sigmaSpace, n - 1), d, sigmaColor, sigmaSpace)
  }

  /** Running `m` passes and then `n` more is running `m + n` passes. */
  lemma {:induction false} PassesCompose(filter: (Image, OddSize, real, real) -> Image, img: Image, d: OddSize,
                                         sigmaColor: real, sigmaSpace: real, m: nat, n: nat)
    ensures Passes(filter, Passes(filter, img, d, sigmaColor, sigmaSpace, m), d, sigmaColor, sigmaSpace, n)
            == Passes(filter, img, d, sigmaColor, sigmaSpace, m + n)
  {
    if n > 0 {
      PassesCompose(filter, img, d, sigmaColor, sigmaSpace, m, n - 1);
    }
  }

  /** What `apply_bilateral` computes: `max(1, iterations)` passes with the
      normalised diameter. */
  function Smooth(f: Filters, gray: Image, cfg: BilateralConfig): (r: Image)
    ensures cfg.iterations <= 1 ==> r == f.bilateral(gray, EnsureOdd(cfg.diameter), cfg.sigmaColor, cfg.sigmaSpace)
    ensures cfg.iterations >= 1 ==> r == Passes(f.bilateral, gray, EnsureOdd(cfg.diameter), cfg.sigmaColor, cfg.sigmaSpace, cfg.iterations)
  {
    var d := BilateralDiameter(cfg.diameter);
    var once := Passes(f.bilateral, gray, d, cfg.sigmaColor, cfg.sigmaSpace, 1);
    assert once == f.bilateral(Passes(f.bilateral, gray, d, cfg.sigmaColor, cfg.sigmaSpace, 0), d, cfg.sigmaColor, cfg.sigmaSpace);
    Passes(f.bilateral, gray, d, cfg.sigmaColor, cfg.sigmaSpace, Max(1, cfg.iterations))
  }

  /** Only the normalised diameter matters: a configuration whose diameter is
      already normalised smooths the same way. */
  lemma SmoothNormalisesDiameter(f: Filters, gray: Image, cfg: BilateralConfig)
    ensures Smooth(f, gray, cfg) == Smooth(f, gray, cfg.(diameter := EnsureOdd(cfg.diameter)))
  {
    EnsureOddIdempotent(cfg.diameter);
  }

  /** `apply_bilateral` as a loop over the passes. */
  method ApplyBilateral(f: Filters, gray: Image, cfg: BilateralConfig) returns (result: Image)
    ensures result == Passes(f.bilateral, gray, EnsureOdd(cfg.diameter), cfg.sigmaColor, cfg.sigmaSpace, Max(1, cfg.iterations))
    ensures result == Smooth(f, gray, cfg)
  {
    result := gray;
    var d := BilateralDiameter(cfg.diameter);
    var n := Max(1, cfg.iterations);
    var i := 0;
    while i < n
      invariant 0 <= i <= n
      invariant result == Passes(f.bilateral, gray, d, cfg.sigmaColor, cfg.sigmaSpace, i)
    {
      result := f.bilateral(result, d, cfg.sigmaColor, cfg.sigmaSpace);
      i := i + 1;
    }
  }

  /** Raising the pass count by `n` smooths the already smoothed raster `n` more
      times, with the same diameter and sigmas. */
  lemma MorePassesContinue(f: Filters, gray: Image, cfg: BilateralConfig, n: nat)
    requires cfg.iterations >= 1
    ensures Smooth(f, gray, cfg.(iterations := cfg.iterations + n))
            == Passes(f.bilateral, Smooth(f, gray, cfg), BilateralDiameter(cfg.diameter), cfg.sigmaColor, cfg.sigmaSpace, n)
  {
    PassesCompose(f.bilateral, gray, BilateralDiameter(cfg.diameter), cfg.sigmaColor, cfg.sigmaSpace, cfg.iterations, n);
  }

  /** Exactly `max(1, iterations)` passes: a filter that adds one sample per call
      grows the raster by that many samples. */
  lemma SmoothPassCount(f: Filters, gray: Image, cfg: BilateralConfig)
    requires forall x: Image, d: OddSize, a: real, b: real :: |f.bilateral(x, d, a, b)| == |x| + 1
    ensures |Smooth(f, gray, cfg)| == |gray| + Max(1, cfg.iterations)
  {
    PassCountGrowth(f.bilateral, gray, BilateralDiameter(cfg.diameter), cfg.sigmaColor, cfg.sigmaSpace, Max(1, cfg.iterations));
  }

  lemma {:induction false} PassCountGrowth(filter: (Image, OddSize, real, real) -> Image, img: Image, d: OddSize,
                                           sigmaColor: real, sigmaSpace: real, n: nat)
    requires forall x: Image, d: OddSize, a: real, b: real :: |filter(x, d, a, b)| == |x| + 1
    ensures |Passes(filter, img, d, sigmaColor, sigmaSpace, n)| == |img| + n
  {
    if n > 0 {
      PassCountGrowth(filter, img, d, sigmaColor, sigmaSpace, n - 1);
    }
  }

  /** The thresholds `detect_edges` hands to Canny: the configured pair, swapped
      when given in reverse, i.e. the smaller one first. */
  function EdgeThresholds(cfg: EdgeConfig): (t: (int, int))
    ensures t.0 <= t.1
    ensures t == (Min(cfg.lowThreshold, cfg.highThreshold), Max(cfg.lowThreshold, cfg.highThreshold))
  {
    var low := cfg.lowThreshold;
    var high := cfg.highThreshold;
    if low > high then (high, low) else (low, high)
  }

  /** `detect_edges`: Canny always receives its thresholds in order. */
  function DetectEdges(f: Filters, gray: Image, cfg: EdgeConfig): (edges: Image)
    ensures edges == f.canny(gray, Min(cfg.lowThreshold, cfg.highThreshold), Max(cfg.lowThreshold, cfg.highThreshold))
  {
    var t := EdgeThresholds(cfg);
    f.canny(gray, t.0, t.1)
  }

  /** Threshold order does not matter: (a, b) and (b, a) detect the same edges. */
  lemma DetectEdgesSymmetric(f: Filters, gray: Image, a: int, b: int)
    ensures DetectEdges(f, gray, EdgeConfig(a, b)) == DetectEdges(f, gray, EdgeConfig(b, a))
  {
  }

  /** The dodge blend shared by both sketches: smooth, invert, blur with the
      normalised kernel, then divide the grayscale by the inverted blur. */
  function BaseSketch(f: Filters, gray: Image, cfg: AppConfig): (r: Image)
    ensures SizePreserving(f) ==> |r| == |gray|
  {
    var smooth := Smooth(f, gray, cfg.smooth);
    var inverted := InvertImage(smooth);
    var blur := f.gaussian(inverted, EnsureOdd(cfg.sketch.blurKsize));
    f.divide(gray, InvertImage(blur))
  }

  /** Only the normalised blur size matters: a configuration whose blur size is
      already `_ensure_odd`-normalised gives the same base sketch. */
  lemma BaseSketchNormalisesKernel(f: Filters, gray: Image, cfg: AppConfig)
    ensures BaseSketch(f, gray, cfg) == BaseSketch(f, gray, cfg.(sketch := SketchConfig(EnsureOdd(cfg.sketch.blurKsize))))
  {
    EnsureOddIdempotent(cfg.sketch.blurKsize);
  }

  /** `pencil_sketch`: the base sketch of the grayscale image, replicated to three
      channels. */
  function PencilSketch(f: Filters, image: Image, cfg: AppConfig): (r: Image)
    ensures var base := BaseSketch(f, f.toGray(image), cfg);
            |r| == 3 * |base| && forall i :: 0 <= i < |r| ==> r[i] == base[i / 3]
  {
    ToBgr(BaseSketch(f, f.toGray(image), cfg))
  }

  /** The raster `pencil_sketch_strong` sharpens: the base sketch with every
      detected edge forced dark and no pixel made lighter. */
  function StrongCore(f: Filters, gray: Image, cfg: AppConfig): (r: Image)
    requires SizePreserving(f)
    ensures var base := BaseSketch(f, gray, cfg);
            var edges := DetectEdges(f, gray, cfg.edge);
            && |r| == |base| == |edges| == |gray|
            && (forall i :: 0 <= i < |r| ==> r[i] <= base[i])
            && (forall i :: 0 <= i < |r| && edges[i] == 255 ==> r[i] == 0)
            && (forall i :: 0 <= i < |r| && edges[i] == 0 ==> r[i] == base[i])
  {
    MaskEdges(BaseSketch(f, gray, cfg), DetectEdges(f, gray, cfg.edge))
  }

  /** `pencil_sketch_strong`: the masked base sketch, sharpened and replicated
      to three channels. */
  function PencilSketchStrong(f: Filters, image: Image, cfg: AppConfig): (r: Image)
    requires SizePreserving(f)
    ensures var sharpened := f.sharpen(StrongCore(f, f.toGray(image), cfg));
            |r| == 3 * |sharpened| && forall i :: 0 <= i < |r| ==> r[i] == sharpened[i / 3]
  {
    ToBgr(f.sharpen(StrongCore(f, f.toGray(image), cfg)))
  }

  /** The soft sketch has no edge overlay and no sharpening: it does not depend
      on the edge thresholds, on the Canny detector or on the sharpening filter. */
  lemma SoftIgnoresEdgeStage(f: Filters, image: Image, cfg: AppConfig, edge: EdgeConfig,
                             canny: (Image, int, int) -> Image, sharpen: Image -> Image)
    ensures PencilSketch(f, image, cfg) == PencilSketch(f.(canny := canny, sharpen := sharpen), image, cfg.(edge := edge))
  {
  }

  datatype SketchMode = Soft | Strong

  /** `(mode or "pencil").lower().strip()`: a missing or empty mode becomes
      "pencil"; any other mode is cut down to the lower-cased text between its
      leading and its trailing whitespace. */
  function NormaliseMode(mode: Option<string>): (m: string)
    ensures mode.None? || mode == Some("") ==> m == "pencil"
    ensures forall k :: 0 <= k < |m| ==> !IsUpper(m[k])
    ensures m != [] ==> !IsSpace(m[0]) && !IsSpace(m[|m| - 1])
    ensures mode.Some? && mode.value != "" ==>
              exists i, j :: 0 <= i <= j <= |mode.value| && m == Lower(mode.value)[i..j]
                             && (forall k :: 0 <= k < i ==> IsSpace(mode.value[k]))
                             && (forall k :: j <= k < |mode.value| ==> IsSpace(mode.value[k]))
  {
    var chosen := if mode.None? || mode.value == "" then "pencil" else mode.value;
    PencilIsNormal();
    StripLower(chosen);
    Strip(Lower(chosen))
  }

  /** A non-empty normalised mode, passed in again, comes back unchanged. (A
      blank mode normalises to "", and "" in turn falls back to "pencil".) */
  lemma NormaliseModeIdempotent(mode: Option<string>)
    ensures NormaliseMode(mode) != "" ==> NormaliseMode(Some(NormaliseMode(mode))) == NormaliseMode(mode)
  {
    var m := NormaliseMode(mode);
    if m != "" {
      LowerOfLowerCase(m);
      StripUnpadded(m);
      assert NormaliseMode(Some(m)) == Strip(Lower(m));
    }
  }

  /** The branch of `process_image`: the strong sketch exactly for the "pencil"
      mode with a sharpness of at least 50, a missing sharpness counting as 50. */
  function SelectMode(mode: Option<string>, sharpness: Option<int>): (m: SketchMode)
    ensures m == Strong <==> NormaliseMode(mode) == "pencil" && (sharpness.None? || sharpness.value >= 50)
  {
    if NormaliseMode(mode) == "pencil" then
      var s := OrDefault(sharpness, 50);
      if s < 50 then Soft else Strong
    else
      Soft
  }

  /** `process_image`: the sketch of the selected branch, with the configuration
      defaulting to `DEFAULT_CONFIG`, and an empty auxiliary map. */
  function ProcessImage(f: Filters, image: Image, mode: Option<string>, config: Option<AppConfig>,
                        sharpness: Option<int>): (r: (Image, map<string, Image>))
    requires SizePreserving(f)
    ensures r.1 == map[]
    ensures SelectMode(mode, sharpness) == Soft ==> r.0 == PencilSketch(f, image, OrDefault(config, DefaultConfig))
    ensures SelectMode(mode, sharpness) == Strong ==> r.0 == PencilSketchStrong(f, image, OrDefault(config, DefaultConfig))
  {
    var cfg := OrDefault(config, DefaultConfig);
    var chosen := if mode.None? || mode.value == "" then "pencil" else mode.value;
    if Strip(Lower(chosen)) == "pencil" then
      var s := OrDefault(sharpness, 50);
      if s < 50 then (PencilSketch(f, image, cfg), map[])
      else (PencilSketchStrong(f, image, cfg), map[])
    else
      (PencilSketch(f, image, cfg), map[])
  }

  /** Swapping the configured edge thresholds never changes the output. */
  lemma ProcessImageThresholdSwap(f: Filters, image: Image, mode: Option<string>, cfg: AppConfig,
                                  sharpness: Option<int>, a: int, b: int)
    requires SizePreserving(f)
    ensures ProcessImage(f, image, mode, Some(cfg.(edge := EdgeConfig(a, b))), sharpness)
            == ProcessImage(f, image, mode, Some(cfg.(edge := EdgeConfig(b, a))), sharpness)
  {
    DetectEdgesSymmetric(f, f.toGray(image), a, b);
  }

  /** A missing or empty mode selects the pencil branch ... */
  lemma MissingModeIsPencil()
    ensures NormaliseMode(None) == "pencil"
    ensures NormaliseMode(Some("")) == "pencil"
    ensures SelectMode(None, None) == Strong
  {
  }

  /** ... while a mode of only whitespace strips to the empty string and falls
      back to the soft sketch. */
  lemma BlankModeIsSoft()
    ensures NormaliseMode(Some("  ")) == ""
    ensures SelectMode(Some("  "), Some(100)) == Soft
  {
    LowerOfLowerCase("  ");
    StripAllSpace("  ");
  }

  /** Capitals and surrounding whitespace do not matter: " PeNcIl\n" is "pencil". */
  lemma PaddedCapitalisedPencil()
    ensures NormaliseMode(Some(" PeNcIl\n")) == "pencil"
  {
    LowerPaddedPencil();
    StripPaddedPencil();
  }

  lemma LowerPaddedPencil()
    ensures Lower(" PeNcIl\n") == " pencil\n"
  {
    var lowered := Lower(" PeNcIl\n");
    assert forall i :: 0 <= i < 8 ==> lowered[i] == " pencil\n"[i];
  }

  lemma StripPaddedPencil()
    ensures Strip(" pencil\n") == "pencil"
  {
    assert " pencil\n" == " " + "pencil" + "\n";
    StripPadded(" ", "pencil", "\n");
  }

  /** "pencil" is left alone by lower-casing and stripping. */
  lemma PencilIsNormal()
    ensures Strip(Lower("pencil")) == "pencil"
  {
    LowerOfLowerCase("pencil");
    StripUnpadded("pencil");
  }

  /** A sharpness of 20 gives the soft sketch, 80 and a missing one the strong
      sketch, and any mode other than pencil the soft sketch. */
  lemma DispatchExamples(other: string)
    requires NormaliseMode(Some(other)) != "pencil"
    ensures SelectMode(Some("pencil"), Some(20)) == Soft
    ensures SelectMode(Some("pencil"), Some(80)) == Strong
    ensures SelectMode(Some("pencil"), None) == Strong
    ensures SelectMode(None, Some(49)) == Soft && SelectMode(None, Some(50)) == Strong
    ensures SelectMode(Some(other), Some(80)) == Soft
  {
    PencilIsNormal();
  }

  /** The shipped defaults are already normalised: Canny gets 50/150 unchanged,
      the diameter 9 and the blur size 21 stay as they are, and the default
      smoothing is exactly one bilateral pass with sigmas 75. */
  lemma DefaultsAreNormalised(f: Filters, gray: Image)
    ensures EdgeThresholds(DefaultConfig.edge) == (50, 150)
    ensures EnsureOdd(DefaultConfig.smooth.diameter) == DefaultConfig.smooth.diameter == 9
    ensures EnsureOdd(DefaultConfig.sketch.blurKsize) == DefaultConfig.sketch.blurKsize == 21
    ensures Smooth(f, gray, DefaultConfig.smooth) == f.bilateral(gray, 9, 75.0, 75.0)
  {
    assert Passes(f.bilateral, gray, 9, 75.0, 75.0, 0) == gray;
  }
}

=== FILE: pixels.dfy ===
/** 8-bit grayscale rasters, stored row by row as one flat sequence of samples,
    and the per-pixel steps of the sketch pipeline that need no OpenCV numerics. */
module Pixels {

  /** One unsigned 8-bit sample (numpy `uint8`). */
  type Pixel = bv8

  /** A raster flattened to its samples; the grid shape does not matter to any
      per-pixel step, so it is not recorded. */
  type Image = seq<Pixel>

  /** `255 - x` on a `uint8`: the result is again a byte, with no wrap-around,
      and is the same as `cv2.bitwise_not`. */
  function Invert(x: Pixel): (r: Pixel)
    ensures r as int == 255 - x as int
    ensures r == !x
  {
    255 - x
  }

  lemma InvertInvolution(x: Pixel)
    ensures Invert(Invert(x)) == x
  {
  }

  /** `255 - img` on a whole raster. */
  function InvertImage(img: Image): (r: Image)
    ensures |r| == |img|
    ensures forall i :: 0 <= i < |img| ==> r[i] as int == 255 - img[i] as int
  {
    seq(|img|, i requires 0 <= i < |img| => Invert(img[i]))
  }

  /** Inverting a raster twice gives it back. */
  lemma InvertImageInvolution(img: Image)
    ensures InvertImage(InvertImage(img)) == img
  {
    assert forall i :: 0 <= i < |img| ==> InvertImage(InvertImage(img))[i] == img[i];
  }

  /** `bitwise_and(sketch, bitwise_not(edge))` on one sample. */
  function MaskPixel(sketch: Pixel, edge: Pixel): (r: Pixel)
    ensures edge == 255 ==> r == 0
    ensures edge == 0 ==> r == sketch
    ensures r <= sketch
    ensures r & edge == 0
    ensures r | (sketch & edge) == sketch
  {
    sketch & !edge
  }

  /** The edge mask of the strong sketch: every edge pixel of 255 forces black,
      every edge pixel of 0 keeps the sketch, and no pixel ever gets lighter. */
  function MaskEdges(sketch: Image, edges: Image): (r: Image)
    requires |sketch| == |edges|
    ensures |r| == |sketch|
    ensures forall i :: 0 <= i < |r| ==> r[i] <= sketch[i]
    ensures forall i :: 0 <= i < |r| && edges[i] == 255 ==> r[i] == 0
    ensures forall i :: 0 <= i < |r| && edges[i] == 0 ==> r[i] == sketch[i]
  {
    seq(|sketch|, i requires 0 <= i < |sketch| => MaskPixel(sketch[i], edges[i]))
  }

  /** `cv2.cvtColor(gray, COLOR_GRAY2BGR)`: every sample becomes three equal
      channel samples, in place. */
  function ToBgr(gray: Image): (r: Image)
    ensures |r| == 3 * |gray|
    ensures forall i :: 0 <= i < |r| ==> r[i] == gray[i / 3]
  {
    if gray == [] then []
    else
      var rest := ToBgr(gray[1..]);
      assert forall i :: 3 <= i < 3 * |gray| ==> (i - 3) / 3 == i / 3 - 1;
      [gray[0], gray[0], gray[0]] + rest
  }
}

=== FILE: statistics.dfy ===
/** The image descriptors that drive the parameter advisor. The edge map (Canny
    with thresholds 80/160) and the 9x9 Gaussian blur are OpenCV results and come
    in as inputs, and so do the standard deviation (contrast) and the Laplacian
    variance (noise level); what is modelled is the counting and averaging done
    on top of them. */
module Statistics {
  import opened Pixels

  /** The five descriptors, exact reals in place of Python's doubles. */
  datatype Descriptors = Descriptors(contrast: real, edgeDensity: real, noiseLevel: real,
                                     smoothness: real, strongRatio: real)

  /** The sample lies in `(lo, hi]`. */
  predicate InRange(v: Pixel, lo: int, hi: int) {
    lo < v as int <= hi
  }

  /** Number of samples `v` with `lo < v <= hi` (numpy's `np.sum` of a boolean mask). */
  function CountIn(img: Image, lo: int, hi: int): (n: nat)
    ensures n <= |img|
    ensures n == 0 <==> forall i :: 0 <= i < |img| ==> !InRange(img[i], lo, hi)
    ensures n == |img| <==> forall i :: 0 <= i < |img| ==> InRange(img[i], lo, hi)
  {
    if img == [] then 0
    else (if InRange(img[0], lo, hi) then 1 else 0) + CountIn(img[1..], lo, hi)
  }

  /** Adjacent ranges add up: the samples in (a, b] and in (b, c] are those in (a, c]. */
  lemma {:induction false} CountInSplit(img: Image, a: int, b: int, c: int)
    requires a <= b <= c
    ensures CountIn(img, a, b) + CountIn(img, b, c) == CountIn(img, a, c)
  {
    if img != [] {
      CountInSplit(img[1..], a, b, c);
    }
  }

  /** Strong edges: samples above 200, i.e. in (200, 255] for bytes. */
  function StrongEdges(edges: Image): (n: nat)
    ensures n <= |edges|
    ensures n == 0 <==> forall i :: 0 <= i < |edges| ==> edges[i] as int <= 200
  {
    CountIn(edges, 200, 255)
  }

  /** Weak edges: samples in (50, 200]. */
  function WeakEdges(edges: Image): (n: nat)
    ensures n <= |edges|
    ensures n == 0 <==> forall i :: 0 <= i < |edges| ==> edges[i] as int <= 50 || 200 < edges[i] as int
  {
    CountIn(edges, 50, 200)
  }

  /** No sample is both strong and weak, so together they never exceed the
      sample count; exactly the samples above 50 are one or the other. */
  lemma EdgeClassesDisjoint(edges: Image)
    ensures StrongEdges(edges) + WeakEdges(edges) == CountIn(edges, 50, 255)
    ensures StrongEdges(edges) + WeakEdges(edges) <= |edges|
  {
    CountInSplit(edges, 50, 200, 255);
  }

  /** `strong / max(weak, 1)`: the denominator is at least one, so the ratio is
      always defined, is never negative, and is zero exactly when `strong` is. */
  function Ratio(strong: nat, weak: nat): (r: real)
    ensures r >= 0.0
    ensures weak >= 1 ==> r * weak as real == strong as real
    ensures weak == 0 ==> r == strong as real
    ensures r == 0.0 <==> strong == 0
  {
    var denominator := if weak >= 1 then weak else 1;
    QuotientFacts(strong as real, denominator as real);
    strong as real / denominator as real
  }

  /** `strong_edges / max(weak_edges, 1)` on an edge map. */
  function StrongRatio(edges: Image): (r: real)
    ensures r >= 0.0
    ensures r == 0.0 <==> forall i :: 0 <= i < |edges| ==> edges[i] as int <= 200
    ensures WeakEdges(edges) == 0 ==> r == StrongEdges(edges) as real
  {
    Ratio(StrongEdges(edges), WeakEdges(edges))
  }

  /** Sum of all samples. */
  function Sum(img: Image): (s: nat)
    ensures s <= 255 * |img|
    ensures s == 0 <==> forall i :: 0 <= i < |img| ==> img[i] == 0
  {
    if img == [] then 0 else img[0] as nat + Sum(img[1..])
  }

  /** Dividing a non-negative amount by a denominator of at least one. */
  lemma QuotientFacts(s: real, n: real)
    requires n >= 1.0 && s >= 0.0
    ensures s / n >= 0.0
    ensures (s / n) * n == s
    ensures s / n == 0.0 <==> s == 0.0
    ensures n == 1.0 ==> s / n == s
  {
  }

  /** The mean of `n` values in [0, 255] with sum `s` lies in [0, 255]. */
  lemma MeanBounds(s: real, n: real)
    requires n >= 1.0 && 0.0 <= s <= 255.0 * n
    ensures 0.0 <= s / n <= 255.0
    ensures s / n == 0.0 <==> s == 0.0
  {
    QuotientFacts(s, n);
  }

  /** `r` is the mean of `count` samples adding up to `total`: taken `count`
      times, it gives the total back. */
  predicate IsMeanOf(r: real, total: nat, count: nat) {
    r * count as real == total as real
  }

  /** The mean is pinned down: two values that are both means of the same
      samples are equal. */
  lemma MeanUnique(r: real, r': real, total: nat, count: nat)
    requires count >= 1 && IsMeanOf(r, total, count) && IsMeanOf(r', total, count)
    ensures r == r'
  {
    assert (r - r') * count as real == 0.0;
  }

  /** The mean of `count` samples adding up to `total`. */
  function Mean(total: nat, count: nat): (r: real)
    requires count >= 1
    ensures r >= 0.0
    ensures IsMeanOf(r, total, count)
    ensures r == 0.0 <==> total == 0
    ensures total <= 255 * count ==> r <= 255.0
  {
    QuotientFacts(total as real, count as real);
    var r := total as real / count as real;
    if total <= 255 * count then
      MeanBounds(total as real, count as real);
      r
    else
      r
  }

  /** `edges_tmp.mean()`: the sample sum shared out over the samples. It lies in
      [0, 255] and is zero exactly when the edge map is blank. */
  function EdgeDensity(edges: Image): (r: real)
    requires |edges| > 0
    ensures 0.0 <= r <= 255.0
    ensures r == 0.0 <==> forall i :: 0 <= i < |edges| ==> edges[i] == 0
    ensures IsMeanOf(r, Sum(edges), |edges|)
  {
    Mean(Sum(edges), |edges|)
  }

  /** `|a - b|` for two samples, computed without wrap-around. */
  function AbsDiff(a: Pixel, b: Pixel): nat {
    if a >= b then (a - b) as int else (b - a) as int
  }

  lemma AbsDiffBound(a: Pixel, b: Pixel)
    ensures AbsDiff(a, b) <= 255
  {
  }

  lemma AbsDiffZero(a: Pixel, b: Pixel)
    ensures AbsDiff(a, b) == 0 <==> a == b
  {
  }

  /** Two rasters of one size are equal exactly when their first samples and
      their tails are. */
  lemma ConsEqual(a: Image, b: Image)
    requires |a| == |b| > 0
    ensures a == b <==> a[0] == b[0] && a[1..] == b[1..]
  {
    assert a == [a[0]] + a[1..] && b == [b[0]] + b[1..];
  }

  /** Sum of `|a[i] - b[i]|` over two rasters of equal size. */
  function SumAbsDiff(a: Image, b: Image): (s: nat)
    requires |a| == |b|
    ensures s <= 255 * |a|
    ensures s == 0 <==> a == b
  {
    if a == [] then 0
    else
      ConsEqual(a, b);
      AbsDiffBound(a[0], b[0]);
      AbsDiffZero(a[0], b[0]);
      AbsDiff(a[0], b[0]) + SumAbsDiff(a[1..], b[1..])
  }

  /** `np.mean(np.abs(gray - blur9))`: the summed absolute difference shared out
      over the samples. It lies in [0, 255] and is zero exactly when blurring
      changed nothing. An empty raster is refused by
      OpenCV before this point, hence the size requirement. */
  function Smoothness(gray: Image, blurred: Image): (r: real)
    requires |gray| == |blurred| > 0
    ensures 0.0 <= r <= 255.0
    ensures r == 0.0 <==> gray == blurred
    ensures IsMeanOf(r, SumAbsDiff(gray, blurred), |gray|)
  {
    Mean(SumAbsDiff(gray, blurred), |gray|)
  }

  /** The descriptor record of `auto_suggest_params`, from the OpenCV results it
      is computed on. */
  function Describe(contrast: real, noiseLevel: real, gray: Image, edges: Image, blurred: Image): (d: Descriptors)
    requires |gray| == |blurred| > 0 && |edges| > 0
    ensures d.contrast == contrast && d.noiseLevel == noiseLevel
    ensures 0.0 <= d.edgeDensity <= 255.0
    ensures 0.0 <= d.smoothness <= 255.0
    ensures d.strongRatio >= 0.0
    ensures IsMeanOf(d.edgeDensity, Sum(edges), |edges|)
    ensures IsMeanOf(d.smoothness, SumAbsDiff(gray, blurred), |gray|)
    ensures d.strongRatio == Ratio(StrongEdges(edges), WeakEdges(edges))
  {
    Descriptors(contrast, EdgeDensity(edges), noiseLevel, Smoothness(gray, blurred), StrongRatio(edges))
  }
}

=== FILE: string_order.dfy ===
/** Python's ordering of `str` values and `list.sort` on a list of them. */
module StringOrder {

  /** `a <= b` on Python strings: lexicographic by code point, a proper prefix
      coming first. */
  predicate LexLe(a: string, b: string) {
    if a == [] then true
    else if b == [] then false
    else if a[0] != b[0] then a[0] < b[0]
    else LexLe(a[1..], b[1..])
  }

  lemma {:induction false} LexLeTotal(a: string, b: string)
    ensures LexLe(a, b) || LexLe(b, a)
  {
    if a != [] && b != [] && a[0] == b[0] {
      LexLeTotal(a[1..], b[1..]);
    }
  }

  lemma {:induction false} LexLeAntisymmetric(a: string, b: string)
    requires LexLe(a, b) && LexLe(b, a)
    ensures a == b
  {
    if a != [] && b != [] {
      LexLeAntisymmetric(a[1..], b[1..]);
      assert a == [a[0]] + a[1..] && b == [b[0]] + b[1..];
    }
  }

  lemma {:induction false} LexLeTransitive(a: string, b: string, c: string)
    requires LexLe(a, b) && LexLe(b, c)
    ensures LexLe(a, c)
  {
    if a != [] && b != [] && c != [] && a[0] == b[0] && b[0] == c[0] {
      LexLeTransitive(a[1..], b[1..], c[1..]);
    }
  }

  /** Every earlier element is at most every later one. */
  predicate Sorted(s: seq<string>) {
    forall i, j :: 0 <= i < j < |s| ==> LexLe(s[i], s[j])
  }

  /** `x` is at most every element of `s`. */
  predicate AllAtLeast(x: string, s: seq<string>) {
    forall j :: 0 <= j < |s| ==> LexLe(x, s[j])
  }

  lemma SortedTail(s: seq<string>)
    requires Sorted(s) && s != []
    ensures Sorted(s[1..])
  {
    assert forall i :: 0 <= i < |s| - 1 ==> s[1..][i] == s[i + 1];
  }

  /** A least element in front of a sorted list keeps it sorted. */
  lemma ConsSorted(x: string, s: seq<string>)
    requires Sorted(s) && AllAtLeast(x, s)
    ensures Sorted([x] + s)
  {
    var t := [x] + s;
    forall i, j | 0 <= i < j < |t|
      ensures LexLe(t[i], t[j])
    {
      assert t[j] == s[j - 1];
      if i > 0 {
        assert t[i] == s[i - 1];
      }
    }
  }

  /** Anything at most the head of a sorted list is at most all of it. */
  lemma BelowHead(x: string, s: seq<string>)
    requires Sorted(s) && s != [] && LexLe(x, s[0])
    ensures AllAtLeast(x, s)
  {
    forall j | 0 <= j < |s|
      ensures LexLe(x, s[j])
    {
      if j > 0 {
        LexLeTransitive(x, s[0], s[j]);
      }
    }
  }

  /** Inserting something above the head into the tail keeps the head least. */
  lemma HeadBelowInsert(x: string, s: seq<string>, rest: seq<string>)
    requires Sorted(s) && s != [] && !LexLe(x, s[0])
    requires multiset(rest) == multiset(s[1..]) + multiset{x}
    ensures AllAtLeast(s[0], rest)
  {
    LexLeTotal(x, s[0]);
    forall j | 0 <= j < |rest|
      ensures LexLe(s[0], rest[j])
    {
      var y := rest[j];
      assert y in multiset(rest);
      if y != x {
        assert y in multiset(s[1..]);
        var i :| 0 <= i < |s[1..]| && s[1..][i] == y;
        assert s[i + 1] == y;
      }
    }
  }

  /** Insertion of one string into a sorted list. */
  function Insert(x: string, s: seq<string>): (r: seq<string>)
    requires Sorted(s)
    ensures Sorted(r)
    ensures multiset(r) == multiset(s) + multiset{x}
  {
    if s == [] then [x]
    else if LexLe(x, s[0]) then
      BelowHead(x, s);
      ConsSorted(x, s);
      [x] + s
    else
      SortedTail(s);
      var rest := Insert(x, s[1..]);
      HeadBelowInsert(x, s, rest);
      ConsSorted(s[0], rest);
      assert s == [s[0]] + s[1..];
      [s[0]] + rest
  }

  /** `list.sort()`: a sorted permutation of the input. */
  function Sort(s: seq<string>): (r: seq<string>)
    ensures Sorted(r)
    ensures multiset(r) == multiset(s)
  {
    if s == [] then []
    else
      assert s == [s[0]] + s[1..];
      Insert(s[0], Sort(s[1..]))
  }

  /** The head of a sorted list is at most every element of the list. */
  lemma HeadIsLeast(a: seq<string>, x: string)
    requires Sorted(a) && x in a
    ensures LexLe(a[0], x)
  {
    var i :| 0 <= i < |a| && a[i] == x;
    if i == 0 {
      LexLeTotal(x, x);
    }
  }

  lemma TailMultiset(a: seq<string>)
    requires a != []
    ensures multiset(a[1..]) == multiset(a) - multiset{a[0]}
  {
    assert a == [a[0]] + a[1..];
  }

  /** Two sorted arrangements of the same strings start alike. */
  lemma SameHeads(a: seq<string>, b: seq<string>)
    requires Sorted(a) && Sorted(b)
    requires multiset(a) == multiset(b)
    requires a != []
    ensures b != [] && a[0] == b[0]
  {
    assert a[0] in multiset(b);
    assert b[0] in multiset(a);
    HeadIsLeast(a, b[0]);
    HeadIsLeast(b, a[0]);
    LexLeAntisymmetric(a[0], b[0]);
  }

  /** There is only one sorted arrangement of a collection of strings, so any
      sorted permutation is the list `list.sort()` produces. */
  lemma {:induction false} SortedPermutationUnique(a: seq<string>, b: seq<string>)
    requires Sorted(a) && Sorted(b)
    requires multiset(a) == multiset(b)
    ensures a == b
  {
    if a != [] {
      SameHeads(a, b);
      TailMultiset(a);
      TailMultiset(b);
      SortedTail(a);
      SortedTail(b);
      SortedPermutationUnique(a[1..], b[1..]);
      assert a == [a[0]] + a[1..] && b == [b[0]] + b[1..];
    }
  }
}

=== FILE: text.dfy ===
/** The few Python string operations the sketch app relies on: `str.lower`,
    `str.strip` and `str.rfind`. Case mapping covers the ASCII letters only. */
module Text {

  /** `str.lower` on one character: the ASCII capitals move to the small letters. */
  function LowerChar(c: char): char {
    if 'A' <= c <= 'Z' then (c as int + 32) as char else c
  }

  predicate IsUpper(c: char) {
    'A' <= c <= 'Z'
  }

  /** `str.lower`: every character is mapped on its own, and the length is kept. */
  function Lower(s: string): (r: string)
    ensures |r| == |s|
    ensures forall i :: 0 <= i < |s| ==> r[i] == LowerChar(s[i])
    ensures forall i :: 0 <= i < |s| ==> !IsUpper(r[i])
  {
    seq(|s|, i requires 0 <= i < |s| => LowerChar(s[i]))
  }

  /** Lower-casing distributes over concatenation. */
  lemma LowerAppend(a: string, b: string)
    ensures Lower(a + b) == Lower(a) + Lower(b)
  {
    assert Lower(a + b) == Lower(a) + Lower(b) by {
      forall i | 0 <= i < |a + b|
        ensures Lower(a + b)[i] == (Lower(a) + Lower(b))[i]
      {
        if i < |a| {
          assert (a + b)[i] == a[i];
        } else {
          assert (a + b)[i] == b[i - |a|];
        }
      }
    }
  }

  /** Lower-casing twice is lower-casing once. */
  lemma LowerIdempotent(s: string)
    ensures Lower(Lower(s)) == Lower(s)
  {
    assert forall i :: 0 <= i < |s| ==> LowerChar(LowerChar(s[i])) == LowerChar(s[i]);
  }

  /** Two strings that differ only in the case of their ASCII letters. */
  predicate SameUpToCase(s: string, t: string) {
    |s| == |t| && forall i :: 0 <= i < |s| ==> LowerChar(s[i]) == LowerChar(t[i])
  }

  lemma SameUpToCaseLower(s: string, t: string)
    requires SameUpToCase(s, t)
    ensures Lower(s) == Lower(t)
  {
  }

  /** A string without capitals is its own lower-case form. */
  lemma LowerOfLowerCase(s: string)
    requires forall i :: 0 <= i < |s| ==> !IsUpper(s[i])
    ensures Lower(s) == s
  {
  }

  /** Python's `str.isspace` for the code points up to 0xA0: tab, line feed,
      vertical tab, form feed, carriage return, the four separators 0x1C-0x1F,
      space, next line and no-break space. */
  predicate IsSpace(c: char) {
    var n := c as int;
    (9 <= n <= 13) || (28 <= n <= 32) || n == 0x85 || n == 0xA0
  }

  /** Index of the first non-whitespace character at or after `i`, or `|s|`. */
  function SpacesFrom(s: string, i: nat): (k: nat)
    requires i <= |s|
    ensures i <= k <= |s|
    ensures forall m :: i <= m < k ==> IsSpace(s[m])
    ensures k < |s| ==> !IsSpace(s[k])
    decreases |s| - i
  {
    if i < |s| && IsSpace(s[i]) then SpacesFrom(s, i + 1) else i
  }

  /** Number of leading whitespace characters. */
  function LeadingSpaces(s: string): (k: nat)
    ensures k <= |s|
    ensures forall m :: 0 <= m < k ==> IsSpace(s[m])
    ensures k < |s| ==> !IsSpace(s[k])
  {
    SpacesFrom(s, 0)
  }

  /** Index where the whitespace run ending at `n` starts. */
  function SpacesBelow(s: string, n: nat): (j: nat)
    requires n <= |s|
    ensures j <= n
    ensures forall m :: j <= m < n ==> IsSpace(s[m])
    ensures 0 < j ==> !IsSpace(s[j - 1])
  {
    if 0 < n && IsSpace(s[n - 1]) then SpacesBelow(s, n - 1) else n
  }

  /** Index where the trailing whitespace starts. */
  function TrailingStart(s: string): (j: nat)
    ensures j <= |s|
    ensures forall m :: j <= m < |s| ==> IsSpace(s[m])
    ensures 0 < j ==> !IsSpace(s[j - 1])
  {
    SpacesBelow(s, |s|)
  }

  /** `str.strip()`: the infix left after removing the whitespace at both ends. */
  function Strip(s: string): (r: string)
    ensures exists i, j :: 0 <= i <= j <= |s| && r == s[i..j]
                           && (forall m :: 0 <= m < i ==> IsSpace(s[m]))
                           && (forall m :: j <= m < |s| ==> IsSpace(s[m]))
    ensures r != [] ==> !IsSpace(r[0]) && !IsSpace(r[|r| - 1])
  {
    var i := LeadingSpaces(s);
    var j := TrailingStart(s);
    if j <= i then
      assert s[i..i] == [];
      []
    else
      s[i..j]
  }

  /** A string with no whitespace at either end is its own strip. */
  lemma StripUnpadded(s: string)
    requires s != [] ==> !IsSpace(s[0]) && !IsSpace(s[|s| - 1])
    ensures Strip(s) == s
  {
  }

  /** Stripping removes exactly the padding: whitespace around a core that
      neither starts nor ends with whitespace. */
  lemma StripPadded(a: string, core: string, b: string)
    requires forall i :: 0 <= i < |a| ==> IsSpace(a[i])
    requires forall i :: 0 <= i < |b| ==> IsSpace(b[i])
    requires core != [] && !IsSpace(core[0]) && !IsSpace(core[|core| - 1])
    ensures Strip(a + core + b) == core
  {
    var s := a + core + b;
    var lo := |a|;
    var hi := |a| + |core|;
    assert forall m :: 0 <= m < lo ==> s[m] == a[m];
    assert forall m :: hi <= m < |s| ==> s[m] == b[m - hi];
    assert s[lo] == core[0] && s[hi - 1] == core[|core| - 1];
    assert LeadingSpaces(s) == lo;
    assert TrailingStart(s) == hi;
    assert s[lo..hi] == core;
  }

  /** Stripping keeps only characters of its argument, so it brings in no capital. */
  lemma StripNoUpper(s: string)
    requires forall k :: 0 <= k < |s| ==> !IsUpper(s[k])
    ensures forall k :: 0 <= k < |Strip(s)| ==> !IsUpper(Strip(s)[k])
  {
    var i := LeadingSpaces(s);
    var j := TrailingStart(s);
    if i < j {
      assert Strip(s) == s[i..j];
    }
  }

  /** Lower-casing turns no character into whitespace and no whitespace into
      anything else. */
  lemma LowerKeepsSpaces(s: string)
    ensures forall k :: 0 <= k < |s| ==> (IsSpace(Lower(s)[k]) <==> IsSpace(s[k]))
  {
  }

  /** `s.lower().strip()`: the lower-cased text between the leading and the
      trailing whitespace of `s`, with no capital left in it. */
  lemma StripLower(s: string)
    ensures forall k :: 0 <= k < |Strip(Lower(s))| ==> !IsUpper(Strip(Lower(s))[k])
    ensures exists i, j :: 0 <= i <= j <= |s| && Strip(Lower(s)) == Lower(s)[i..j]
                           && (forall k :: 0 <= k < i ==> IsSpace(s[k]))
                           && (forall k :: j <= k < |s| ==> IsSpace(s[k]))
  {
    var t := Lower(s);
    StripNoUpper(t);
    LowerKeepsSpaces(s);
    var i := LeadingSpaces(t);
    var j := TrailingStart(t);
    if j <= i {
      assert i == |s|;
      assert Strip(t) == t[i..i];
      assert forall k :: 0 <= k < i ==> IsSpace(s[k]);
    } else {
      assert Strip(t) == t[i..j];
      assert (forall k :: 0 <= k < i ==> IsSpace(s[k])) && (forall k :: j <= k < |s| ==> IsSpace(s[k]));
    }
  }

  /** A string of whitespace only strips to the empty string. */
  lemma StripAllSpace(s: string)
    requires forall i :: 0 <= i < |s| ==> IsSpace(s[i])
    ensures Strip(s) == ""
  {
  }

  /** The last index below `n` holding `c`, or -1. */
  function LastBelow(s: string, c: char, n: nat): (r: int)
    requires n <= |s|
    ensures -1 <= r < n
    ensures 0 <= r ==> s[r] == c
    ensures forall k :: r < k < n ==> s[k] != c
  {
    if n == 0 then -1
    else if s[n - 1] == c then n - 1
    else LastBelow(s, c, n - 1)
  }

  /** `str.rfind(c)`: the index of the last occurrence of `c`, or -1 when there is none. */
  function RFind(s: string, c: char): (r: int)
    ensures -1 <= r < |s|
    ensures 0 <= r ==> s[r] == c
    ensures forall k :: r < k < |s| ==> s[k] != c
  {
    LastBelow(s, c, |s|)
  }

  /** The last occurrence is unique: any index with the contract of `RFind` is `RFind`. */
  lemma RFindUnique(s: string, c: char, r: int)
    requires -1 <= r < |s|
    requires 0 <= r ==> s[r] == c
    requires forall k :: r < k < |s| ==> s[k] != c
    ensures RFind(s, c) == r
  {
  }
}
